=== FILE: README.md ===
# Steering-wheel firmware: a Dafny model

This project models the core of a race-car steering wheel's firmware.

The wheel receives the engine speed over CAN and shows it on a 16-pixel tachometer strip. A 4-pixel aux strip shows the engine temperature and whether the engine is running. Six buttons drive the controls:

- upshift and downshift, with a "money-shift" guard that refuses a downshift at high engine speed;
- DRS;
- settings, whose long press toggles the LED brightness;
- two aux buttons.

A button-test mode can be entered during the startup animation.

## Modules

| file | module | models |
|---|---|---|
| config.dfy | `Config` | the build-time constants of `main.h` and `leds.h` |
| color.dfy | `Color` | `Pixel` and the 8-bit fixed-point `hsv` conversion |
| can.dfy | `Can` | CAN frames: the ECU engine-speed word and the 3-byte command frame |
| vehicle.dfy | `Vehicle` | the shared `SteeringWheelState` record |
| controls.dfy | `Controls` | the work items of `main.cpp`: CAN reception, shift and DRS commands, the brightness toggle and its long-press timer, and the test-mode callbacks |
| tach.dfy | `Tach` | `tachLeds` and `tachLedsRainbow` |
| renderer.dfy | `Renderer` | the `LEDs` class: mode machine, frame timer, `updateLEDs` and `auxLeds` |
| dispatch.dfy | `Dispatch` | the event queue, which handler a button edge reaches in each boot phase, and runs of many work items |

### Modelling choices

- **State and handlers.** The model treats every work item as one atomic step: a pure function from the state to a new state plus at most one outgoing frame. In the code, the CAN, shift, DRS and brightness handlers run on the event thread, and `steering_wheel_received`, `upshift`, `downshift`, `drs_on`, `drs_off` and `dim_leds` take the state lock (main.cpp:49, 156, 165, 180, 190, 203). The button-test callbacks do not: they run in interrupt context and write `buttons` without the lock (main.cpp:87-121). `settings_pressed` and `settings_released` take no lock either (main.cpp:217-223). See "## Left out".
- **Frame timer.** The float `state_timer` becomes an integer frame count. The elapsed time is `ticks / 60` as an exact real.
- **Flash phase.** `fmod(t, 0.15) > 0.075` holds exactly when `ticks % 9 >= 5` (`Renderer.FlashPhase`). So each 9-frame period has 5 dark frames (`ticks % 9` in 0..4) and 4 lit ones (5..8). The period is counted from the last mode change, and the timer advances before each frame is drawn: drawn frames 1 to 4 after a mode change are dark, 5 to 8 are lit, frame 9 is dark again, and so on.
- **Float to `uint8_t`.** This conversion drops the fraction (`Color.ToByte`). Storing an `int` into a `uint8_t` keeps it modulo 256 (`Color.Narrow`).
- **Uninitialised locals.** The source reads some locals it never initialises:
  - `Pixel color;` in `tachLeds`;
  - `Pixel off;` in `tachLedsRainbow`;
  - the intensity byte of the temperature pixel.

  The model gives each such read a parameter `junk`.
- **The searching pulse.** `sin(6 t)^2` is a parameter `pulse` in [0, 1].
- **CAN identifiers.** These are symbolic (`Ecu1Id`, `SteeringWheelId`, others), because the header that defines them is not part of this model.
- **Boot phases.** These are `Dispatch.Phase`:
  - `Booting`: only a settings release is wired, and it enters test mode.
  - `Testing`: every button feeds the test record.
  - `Running`: the normal handlers are wired.

  `BootEnd` is `main` finishing its startup wait. In test mode it takes effect only while upshift and downshift are both held.

### Behaviour of the code worth noting

- The flash is lit in the second half of each period: the test is `fmod(t, FLASH_TIME_S) > FLASH_TIME_S / 2` (leds.cpp:67, 92 and 226), although main.h:21 calls `FLASH_TIME_S` the on time.
- At exactly `FLASH_RPM`, pixel 0 of the tachometer is still dark, and at most 15 pixels ever light below the flash threshold. The drive of pixel `i` is `num_lit_leds - (16 - i)` (leds.cpp:78), so pixel 0's drive never exceeds 0 there (`Tach.AtFlashThreshold`).
- In the rainbow pattern, the dark flash phase shows `Pixel off;` (leds.cpp:97), which is never initialised. The model keeps only what the code guarantees: all 16 pixels are equal.
- `leds.cpp` as written does not compile against `leds.h`. `case RainbowRoad:` (leds.cpp:164) names an identifier that the `LEDState` enumeration (leds.h:19-23) does not declare. `LEDs::tachLedsRainbow` (leds.cpp:90) is defined but not declared in `class LEDs` (leds.h:25-46). `Renderer.Mode` has the four declared modes; `tachLedsRainbow` is modelled on its own as `Tach.TachLedsRainbow`.
- `ect` (main.h:57) is never written: no CAN frame stores a temperature. So from boot the temperature stays in the cold band (`Dispatch.TemperatureStaysCold`), and every tachometer frame draws aux pixel 0 in the cold colour (`Dispatch.ColdPixelShown`).
- The engine-state pixel is `hsv(30, 255, state->brightness)` (leds.cpp:243), whose value byte is 1 or 0; see "## Findings". The frame model (`Renderer.AuxLeds`, `Renderer.UpdateLeds`) draws it as written.

## Model

| member | source | states |
|---|---|---|
| `Config.RpmThresholdsOrdered` | firmware/main.h:19-23 | MIN_RPM < MONEY_SHIFT_THRESHOLD < FLASH_RPM: the guard sits inside the tachometer band |
| `Config.TemperatureThresholdsOrdered` | firmware/main.h:25-27 | the three temperature thresholds (tenths of a degree) are positive and increasing |
| `Config.BrightnessPresetsOrdered` | firmware/main.h:15-16 | the low preset is a proper dimming of the default preset 1.0 |
| `Config.RangesDivideEvenly` | firmware/main.h:19-21 | the 8000-RPM band divides over the 16 pixels with no remainder, `RPM_PER_PIXEL` (500) each, and the 0.15 s flash period is exactly 9 frames at 60 frames per second |
| `Color.Narrow` | firmware/leds.cpp:80 | storing an int in a `uint8_t` leaves values already in 0..255 unchanged |
| `Color.ToByte` | firmware/leds.cpp:128 | a float-to-`uint8_t` conversion lands within 1 below its argument |
| `Color.Hsv` | firmware/leds.cpp:4-57 | intensity byte 255; zero saturation gives gray at `v`; otherwise the region fixes each channel's role: `v` goes to red in regions 0 and 5, green in 1 and 2, blue in 3 and 4; the floor p to blue in regions 0 and 1, red in 2 and 3, green in 4 and 5; the remaining channel is the rising t in regions 0, 2 and 4 and the falling q in regions 1, 3 and 5 |
| `Color.HsvNoOverflow` | firmware/leds.cpp:16-21 | region at most 5, remainder at most 252 and p, q, t at most 254, so no `unsigned char` store in `hsv` wraps |
| `Color.HsvChannelOrder` | firmware/leds.cpp:19-21 | p <= q <= v and p <= t <= v for every hue, saturation and value |
| `Color.HsvValueIsBrightest` | firmware/leds.cpp:23-54 | the brightest channel of `hsv(h, s, v)` is exactly `v`, and for non-zero saturation the dimmest is p |
| `Color.RegionStart` | firmware/leds.cpp:16-21 | at hue 43k and full saturation, p and t are 0 and q is one step below `v` |
| `Color.HsvRegionStarts` | firmware/leds.cpp:23-54 | at the first hue of each region, at full saturation, the exact pixel: pure red, green and blue start regions 0, 2 and 4; regions 1, 3 and 5 start with a second channel at `v - 1` |
| `Can.DecodeRpm` | firmware/main.cpp:47 | the engine speed is the little-endian 16-bit word at ECU_RPM_BYTE; its low and high bytes are exactly the two frame bytes |
| `Can.RpmRoundTrip` | firmware/main.cpp:47 | every 16-bit engine speed laid out by an ECU decodes back to itself |
| `Can.RpmDecodeReadsTwoBytes` | firmware/main.cpp:47 | two frames decode alike if and only if they agree on the two RPM bytes |
| `Can.CommandFrame` | firmware/main.cpp:130-143 | the command frame has the wheel's identifier, length 3, and byte k is 1 exactly when flag k is set (else 0) |
| `Can.CommandRoundTrip` | firmware/main.cpp:130-143 | decoding a command frame recovers the DRS, upshift and downshift flags it was built from |
| `Vehicle.InitialValid` | firmware/main.cpp:250-253 | the boot record has the default brightness, engine speed 0, DRS off, no telemetry and no button down |
| `Controls.SteeringWheelReceived` | firmware/main.cpp:46-55 | an ECU frame stores its decoded engine speed and marks telemetry seen, changing nothing else and keeping the record valid |
| `Controls.ReceiveFrame` | firmware/main.cpp:63-66 | only a frame with the ECU identifier changes the state |
| `Controls.CanReceived` | firmware/main.cpp:58-68 | draining a batch: no ECU frame leaves the state unchanged; otherwise the last ECU frame of the batch decides the engine speed; only speed and telemetry flag change |
| `Controls.LastEcuFrameExists` | firmware/main.cpp:61-66 | a batch holding an ECU frame has a last one |
| `Controls.Upshift` | firmware/main.cpp:154-162 | an upshift always sends one frame, which decodes to (current DRS, upshift, no downshift); the state is unchanged |
| `Controls.Downshift` | firmware/main.cpp:163-175 | a frame is sent if and only if rpm <= MONEY_SHIFT_THRESHOLD, and it decodes to (current DRS, no upshift, downshift) |
| `Controls.DrsOn` | firmware/main.cpp:178-187 | DRS is recorded on, and the frame sent carries the same DRS flag and no shift |
| `Controls.DrsOff` | firmware/main.cpp:188-196 | DRS is recorded off, and the all-clear frame carries the same DRS flag |
| `Controls.DimLeds` | firmware/main.cpp:201-213 | the default preset becomes the low one and any other setting becomes the default, so the new brightness is a preset differing from the old; nothing else changes |
| `Controls.DimTwiceRestores` | firmware/main.cpp:205-209 | toggling twice restores either preset |
| `Controls.SettingsPressed` | firmware/main.cpp:217-219 | a press (re)arms the long-press timer, whatever its state: when it fires it toggles the brightness preset |
| `Controls.SettingsReleased` | firmware/main.cpp:221-223 | a release cancels the timer, whatever its state: it can no longer change the state |
| `Controls.DimTimerFires` | firmware/main.cpp:199-215 | the timeout changes the brightness if and only if the timer was armed, and leaves it disarmed |
| `Controls.LongPressOnly` | firmware/main.cpp:215-223 | a press released before the timeout changes nothing; a press held to the timeout toggles the brightness |
| `Controls.ButtonTestFall` | firmware/main.cpp:87-98 | a test-mode press sets exactly entry k of the button record |
| `Controls.ButtonTestRise` | firmware/main.cpp:87-98 | a test-mode release clears exactly entry k |
| `Controls.HandlersPreserveValid` | firmware/main.cpp:46-223 | every handler keeps the brightness a preset and the engine speed a 16-bit word |
| `Tach.ClassifyMatchesPower` | firmware/leds.cpp:76-85 | the integer classification of a pixel agrees with the float drive: full iff drive > 1, partial iff in (0, 1], dark iff <= 0 |
| `Tach.LitPixelsFormSuffix` | firmware/leds.cpp:76-85 | lit pixels and fully lit pixels each form a suffix of the strip, the full one starting one pixel later: at most one pixel is partial |
| `Tach.LevelMonotone` | firmware/leds.cpp:76-85 | a higher engine speed or a later pixel never has a lower level |
| `Tach.ValueMonotone` | firmware/leds.cpp:80-82 | a smaller drive fraction never gives a larger value byte |
| `Tach.PartialPixelDimmer` | firmware/leds.cpp:81-82 | a partially driven pixel keeps its hue and is never brighter than the fully driven one |
| `Tach.TachPixelLevel` | firmware/leds.cpp:77-86 | a tachometer pixel is `Pixel()` iff it is dark; a full pixel is `hsv(4i, 255, 255*brightness)`; a partial one has the same hue, no brighter |
| `Tach.TachPixelPartialValue` | firmware/leds.cpp:81-82 | a partially driven pixel (0 < power <= 1) has value `255 * brightness * power * power`, the square of its drive |
| `Tach.TachLeds` | firmware/leds.cpp:64-88 | 16 pixels; above FLASH_RPM all 16 equal the one flash colour |
| `Tach.TachLedsLevels` | firmware/leds.cpp:75-87 | below the flash threshold every pixel of the frame shows its level as in `TachPixelLevel` |
| `Tach.IdleStripIsDark` | firmware/leds.cpp:76-85 | at or below MIN_RPM every pixel is `Pixel()` |
| `Tach.AtFlashThreshold` | firmware/leds.cpp:76-85 | at FLASH_RPM, pixel i has drive i: pixel 0 is dark, pixel 1 partial at full value, the rest full; pixel 0 is dark at every speed up to the flash |
| `Tach.TachLedsRainbow` | firmware/leds.cpp:90-115 | 16 pixels; above FLASH_RPM the lit phase shows every pixel at full value in hue `16i + shift`, and the dark phase shows one uninitialised colour |
| `Tach.RainbowLevels` | firmware/leds.cpp:102-114 | below the flash threshold no rainbow pixel is `Pixel()`: each is its own hue, full value when full, `255 * brightness * power` when partial, the 10% glow when dark |
| `Tach.RainbowPixelLevel` | firmware/leds.cpp:104-113 | one rainbow pixel is `hsv` of its own hue at full saturation, intensity 255, with value `255 * brightness` when full, `255 * brightness * power` when partial and `255 * brightness * 0.1` when dark |
| `Tach.RainbowPartialDipsBelowGlow` | firmware/leds.cpp:108-111 | at 6325 RPM the one partial pixel has value 12, darker than the dark pixels' glow of 25 |
| `Renderer.UpdateState` | firmware/leds.h:42-45 | a mode change sets the mode, resets the timer to 0 and keeps both buffers |
| `Renderer.FlashPhase` | firmware/leds.cpp:67 | the `fmod` flash test is lit exactly in frames 5..8 of each 9-frame period from mode entry, and is 9-periodic |
| `Renderer.EaseIn` | firmware/leds.cpp:126-127 | the startup fade factor lies in [0, 1] |
| `Renderer.StartupFadeIn` | firmware/leds.cpp:126-128 | the startup value never decreases, starts at 0 and reaches the full value after one second |
| `Renderer.StartupFrame` | firmware/leds.cpp:123-134 | a startup frame shows one value on both strips, main hues 16 apart from the hue shift and aux hues 32 apart from 16 past it |
| `Renderer.SweepRamp` | firmware/leds.cpp:142 | the sweep's engine speed `(int)(t * FLASH_RPM * 0.6)` is 138 RPM per frame and passes FLASH_RPM after 100 frames |
| `Renderer.SweepFrame` | firmware/leds.cpp:140-145 | a sweep frame draws the plain tachometer at 138 RPM per frame since the sweep began, in that frame's flash phase, and sets every aux pixel to `Pixel()` |
| `Renderer.BandsOrdered` | firmware/leds.cpp:213-225 | the temperature bands partition the scale in order at the three thresholds |
| `Renderer.TemperaturePixelShowsBand` | firmware/leds.cpp:209-240 | at either preset, aux pixel 0 is dark iff normal band or very-hot flash off; blue-dominant when cold; red-dominant when lit hot; intensity byte uninitialised |
| `Renderer.RunningPixelAsWrittenIsInvisible` | firmware/leds.cpp:242-246 | as written, a running engine at the low preset shows the very pixel of a stopped one, and at the default preset a brightest channel of 1 |
| `Renderer.RunningPixelShowsEngine` | firmware/leds.cpp:242-246 | corrected: at either preset aux pixel 3 differs from the stopped pixel iff rpm > 0, lit at the full value |
| `Renderer.AuxLeds` | firmware/leds.cpp:209-247 | `auxLeds` writes only pixels 0 and 3; pixels 1 and 2 keep their contents; pixel 0 is the temperature pixel; pixel 3 is `hsv(30, 255, brightness)` as written when rpm > 0 and the dark `hsv(0, 0, 0)` otherwise |
| `Renderer.StartupFramesExact` | firmware/leds.cpp:135 | the timer passes 3 s exactly after frame 180 |
| `Renderer.UpdateLeds` | firmware/leds.cpp:117-207 | each frame advances the timer by 1/60 s and keeps the mode, except that the startup animation hands over to the sweep with the timer reset once 3 s have passed; in tachometer mode aux pixel 3 is the engine-state pixel as written |
| `Renderer.ButtonTestFrame` | firmware/leds.cpp:182-200 | in button test, main pixel i is lit iff i < 6 and button i is down, in the on colour; the aux strip is dark |
| `Renderer.TachometerFrame` | firmware/leds.cpp:148-162 | with telemetry the main strip is the tachometer for the reported speed; without it, every pixel is `{0, v, v, 0}`: yellow, with blue and intensity bytes 0, at the pulse value `v = 255 * pulse * brightness`; aux pixel 0 is the temperature pixel for `ect`; aux pixels 1 and 2 kept; pixel 3 is the engine-state pixel as written, so at the low preset it is dark whatever the engine speed |
| `Renderer.StartupHandsOverToSweep` | firmware/leds.cpp:118-137 | from boot the animation holds for 180 frames and frame 181 switches to the sweep with the timer at 0, whatever the inputs |
| `Dispatch.Index` | firmware/main.cpp:87-98 | each button names an entry of the six-entry test record |
| `Dispatch.IndexInjective` | firmware/main.cpp:87-98 | distinct buttons name distinct entries of the test record, so no two callbacks write the same entry |
| `Dispatch.InitialInv` | firmware/main.cpp:250-253 | the boot system satisfies the invariant and starts the startup animation at timer 0 |
| `Dispatch.EnterTestMode` | firmware/main.cpp:101-122 | test mode shows the button test and leaves the record and timer alone |
| `Dispatch.TestCallback` | firmware/main.cpp:87-98 | a test callback sets the button's entry on a press, clears it on a release, and changes nothing else |
| `Dispatch.FinishBoot` | firmware/main.cpp:276-301 | boot ends into normal operation with the tachometer shown; test mode is left only while upshift and downshift are both held; a later call changes nothing |
| `Dispatch.RunningEdge` | firmware/main.cpp:285-297 | in normal operation a frame goes out iff upshift is pressed, downshift is pressed at or below the guard, or DRS changes; the frame decodes to (drs, up, 0) for upshift, (drs, 0, down) for downshift and (pressed, 0, 0) for DRS (`Dispatch.EdgeCommand`) |
| `Dispatch.Step` | firmware/main.cpp:46-301 | only button edges in normal operation send frames, each a 3-byte actuator command, and normal operation is never left; in test mode every button edge goes to its test callback; a frame asking for a downshift only answers a downshift press at or below the guard |
| `Dispatch.StepPreservesInv` | firmware/main.cpp:101-301 | every work item keeps the invariant: valid record, LED mode matching the boot phase, no long-press timing before normal operation, test record untouched unless test mode ran |
| `Dispatch.EdgePreservesInv` | firmware/main.cpp:87-122 | button edges keep the invariant in every phase |
| `Dispatch.Run` | firmware/main.cpp:23-25 | every frame a run sends is a 3-byte actuator command, at most one per work item |
| `Dispatch.RunPreservesInv` | firmware/main.cpp:239-306 | the invariant holds after any sequence of work items |
| `Dispatch.SilentUntilBootEnds` | firmware/main.cpp:271-285 | before boot ends nothing is sent, whatever the buttons and CAN traffic |
| `Dispatch.MoneyShiftGuard` | firmware/main.cpp:163-175 | a downshift press in normal operation sends iff rpm <= threshold, and the frame asks for a downshift alone |
| `Dispatch.DownshiftsGuarded` | firmware/main.cpp:163-175 | over any run, every frame sent that asks for a downshift answers a downshift press made while rpm was at or below the threshold |
| `Dispatch.LongPressToggles` | firmware/main.cpp:215-223 | press then timeout toggles the brightness; press, release, timeout leaves the record unchanged |
| `Dispatch.StepKeepsBrightness` | firmware/main.cpp:199-223 | with the timer cancelled, no work item but a settings press changes the brightness or rearms the timer |
| `Dispatch.ReleasedTimerNeverDims` | firmware/main.cpp:199-223 | once cancelled, no run without a settings press changes the brightness |
| `Dispatch.StepKeepsEct` | firmware/main.cpp:46-55 | no work item writes the engine temperature |
| `Dispatch.TemperatureStaysCold` | firmware/main.h:57 | from boot the temperature stays 0, so the temperature pixel stays in the cold band |
| `Dispatch.ColdPixelShown` | firmware/leds.cpp:209-240 | after any run from boot that reaches the tachometer, the next frame's aux pixel 0 is the cold colour (blue 255 and green 100 scaled by brightness, red 0) |
| `Dispatch.AuxButtonsAfterBoot` | firmware/main.cpp:117-121 | after boot each aux button (aux1 and aux2) still sets or clears its own test-record entry, and changes nothing else, iff test mode ran, since their test callbacks are never rewired; otherwise its edge is ignored |

## Left out

- Hardware I/O is not modelled: the WS2812 strip writes, the CAN controller, the debounced pins, SWO and `printf`. Each frame's buffers are the model's output instead.
- The state mutex and the interrupt/thread concurrency are not modelled. Every queued work item is one atomic step, in queue order, which matches the single event thread.
- `BootEnd` is not a queued work item: it is `main`'s own code (main.cpp:271-301). Its `leds.updateState(Tachometer)` and its rewiring of the button callbacks run on the main thread and can interleave with `updateLEDs` on the event thread. The model still makes it one atomic step between work items.
- Unlocked writes are not modelled. The button-test callbacks write `buttons` from interrupt context without the state lock, and `settings_pressed`/`settings_released` take no lock. The model still makes each one atomic, so an interleaving with a frame that reads the state half-way is not modelled.
- The event queue's capacity (32 events) is not modelled, nor are dropped calls.
- Timing is modelled as frames and event order, not wall time. This leaves out the 3-second length of the long-press timeout, the 5-second startup wait in `main`, and its 50 ms polling of the test-mode exit.
- A fired timeout and the `dim_leds` it queues are one step. A release that falls between the timeout interrupt and `dim_leds` running is not modelled.
- Test-mode exit is read from the test record, not from the pins directly. The two agree while the test callbacks are wired.
- The race in which `test_mode` is still queued when `main` checks `isTestMode` is not modelled.
- Float rounding is not modelled. The timer, `num_lit_leds`, `power` and the brightness products are exact reals, then truncated. In particular:
  - `state_timer`'s accumulation of `1/60` is exact;
  - `LOW_BRIGTNESS` is exactly 0.1.
- `sin` is not modelled: the searching pulse level is a parameter.
- The `RainbowRoad` branch of `updateLEDs` is not modelled, because it names a mode that `LEDState` does not declare, so the file as written does not compile. `tachLedsRainbow` itself is modelled (`Tach.TachLedsRainbow`).
- The numeric CAN identifiers are not modelled: `can-ids/CAN_IDS.h` is not part of this model.
- A failed CAN write is not modelled. It only prints.
- A received frame's length is not consulted, as in `steering_wheel_received`, which reads the RPM bytes whatever `len` says. Bytes past `len` in a sent frame are not modelled; the model's frames hold zeros there.
- The contents of uninitialised locals are arbitrary parameters, not modelled values. One `junk` pixel per frame stands for both `Pixel color;` in `tachLeds` (leds.cpp:66) and the unwritten intensity byte of the temperature pixel (leds.cpp:210). This ties two unrelated values together. No property relies on that, and no property would change if they were separate.
- `Tach.TachLedsRainbow`: for the dark flash phase it states only that all 16 pixels are equal, because the source shows an uninitialised `Pixel off;` there.
- `Renderer.TemperaturePixelShowsBand`, `Renderer.RunningPixelShowsEngine` and `Renderer.ButtonTestFrame` are stated for the two brightness presets only. These are the only values the firmware ever stores.

## Findings

| source | as written | input that shows it | evidently intended | confidence | as-written member | corrected member |
|---|---|---|---|---|---|---|
| firmware/leds.cpp:243 | `hsv(30, 255, state->brightness)` converts the float brightness (1.0 or 0.1) to the value byte, giving 1 or 0 | engine running (rpm > 0) at the low preset: value 0, the same pixel as `hsv(0, 0, 0)` for a stopped engine; at the default preset the amber is 1/255 | `hsv(30, 255, 255 * state->brightness)`, as every other value byte in the file is scaled | not executed | `Renderer.RunningPixelAsWrittenIsInvisible` | `Renderer.RunningPixelShowsEngine` |

=== FILE: can.dfy ===
/** CAN frames: the ECU telemetry frame the wheel reads and the 3-byte
    command frame it sends to the shift/DRS actuator. */
module Can {
  import opened Config
  import opened Color

  datatype Option<T> = None | Some(value: T)

  /** Frame identifiers. Their numeric values are defined in
      can-ids/CAN_IDS.h, which is not part of this model; only which of
      them a frame carries matters here. */
  datatype CanId = Ecu1Id | SteeringWheelId | OtherId(raw: nat)

  /** The fixed 8-byte data buffer of a CAN message. */
  type Data8 = s: seq<byte> | |s| == 8 witness [0, 0, 0, 0, 0, 0, 0, 0]

  /** A CAN message: identifier, payload length and the data buffer.
      Bytes past `len` are zero in every frame the wheel builds. */
  datatype CanMessage = CanMessage(id: CanId, len: nat, data: Data8)

  /** The engine speed in an ECU frame: a little-endian 16-bit word at
      `ECU_RPM_BYTE`. The length field is not consulted. */
  function DecodeRpm(data: Data8): (rpm: int)
    ensures 0 <= rpm <= 65535
    ensures rpm % 256 == data[ECU_RPM_BYTE] && rpm / 256 == data[ECU_RPM_BYTE + 1]
  {
    (data[ECU_RPM_BYTE + 1] as int) * 256 + data[ECU_RPM_BYTE] as int
  }

  /** How an ECU lays out an engine speed; the inverse of `DecodeRpm` on
      the two bytes it reads. */
  function EncodeRpm(rpm: int): (data: Data8)
    requires 0 <= rpm <= 65535
  {
    [rpm % 256, rpm / 256, 0, 0, 0, 0, 0, 0]
  }

  /** Every 16-bit engine speed survives the trip through the frame. */
  lemma RpmRoundTrip(rpm: int)
    requires 0 <= rpm <= 65535
    ensures DecodeRpm(EncodeRpm(rpm)) == rpm
  {
  }

  /** Decoding reads exactly the two RPM bytes and nothing else: frames
      that agree on them decode alike, and re-encoding restores them. */
  lemma RpmDecodeReadsTwoBytes(d1: Data8, d2: Data8)
    ensures DecodeRpm(d1) == DecodeRpm(d2) <==> d1[..2] == d2[..2]
    ensures EncodeRpm(DecodeRpm(d1))[..2] == d1[..2]
  {
    if DecodeRpm(d1) == DecodeRpm(d2) {
      assert d1[0] == d2[0] && d1[1] == d2[1];
    }
    if d1[..2] == d2[..2] {
      assert d1[0] == d1[..2][0] && d1[1] == d1[..2][1];
    }
  }

  /** The three flags a command frame carries. */
  datatype Command = Command(drs: bool, upshift: bool, downshift: bool)

  function Flag(b: bool): byte { if b then 1 else 0 }

  /** The frame the wheel sends for a command: a 3-byte payload whose byte
      k is 1 exactly when flag k is set. */
  function CommandFrame(drs: bool, upshift: bool, downshift: bool): (m: CanMessage)
    ensures m.id == SteeringWheelId && m.len == 3
    ensures m.data[0] == 1 <==> drs
    ensures m.data[1] == 1 <==> upshift
    ensures m.data[2] == 1 <==> downshift
    ensures forall k | 0 <= k < 3 :: m.data[k] == 0 || m.data[k] == 1
  {
    CanMessage(SteeringWheelId, 3, [Flag(drs), Flag(upshift), Flag(downshift), 0, 0, 0, 0, 0])
  }

  /** How the receiving node reads a command frame: any non-zero byte is a
      set flag. */
  function DecodeCommand(m: CanMessage): Command
  {
    Command(m.data[0] != 0, m.data[1] != 0, m.data[2] != 0)
  }

  /** Decoding a command frame recovers the flags it was built from, so
      distinct commands give distinct frames. */
  lemma CommandRoundTrip(drs: bool, upshift: bool, downshift: bool)
    ensures DecodeCommand(CommandFrame(drs, upshift, downshift)) == Command(drs, upshift, downshift)
  {
  }
}

=== FILE: color.dfy ===
/** Strip pixels and the 8-bit fixed-point HSV to RGB conversion. */
module Color {

  /** An `uint8_t` / `unsigned char`. */
  type byte = x: int | 0 <= x < 256

  /** Storing an `int` into an 8-bit unsigned variable keeps it modulo 256. */
  function Narrow(x: int): (b: byte)
    ensures 0 <= x < 256 ==> b == x
  {
    x % 256
  }

  /** Converting a non-negative `float` below 256 to `uint8_t` drops the
      fraction. */
  function ToByte(x: real): (b: byte)
    requires 0.0 <= x < 256.0
    ensures b as real <= x < b as real + 1.0
  {
    x.Floor
  }

  /** One strip pixel, in the byte order the strip driver sends: blue,
      green, red, then the global-intensity byte. */
  datatype Pixel = Pixel(b: byte, g: byte, r: byte, i: byte)

  /** `Pixel()`: value-initialised, every byte zero. */
  const Off := Pixel(0, 0, 0, 0)

  function Max(x: int, y: int): int { if x < y then y else x }

  function Min(x: int, y: int): int { if x < y then x else y }

  /** The largest of the three colour channels. */
  function Brightest(px: Pixel): int { Max(px.r, Max(px.g, px.b)) }

  /** The smallest of the three colour channels. */
  function Dimmest(px: Pixel): int { Min(px.r, Min(px.g, px.b)) }

  /** The six 43-wide hue regions; region 5 is 215..255. */
  function Region(h: byte): byte { Narrow(h / 43) }

  /** Position within the region, scaled by 6 to span 0..252. */
  function Remainder(h: byte): byte { Narrow((h - Region(h) * 43) * 6) }

  /** The channel held low: `(v * (255 - s)) >> 8`. */
  function ChannelP(s: byte, v: byte): byte { Narrow(v * (255 - s) / 256) }

  /** The channel fading out across the region. */
  function ChannelQ(h: byte, s: byte, v: byte): byte
  {
    Narrow(v * (255 - s * Remainder(h) / 256) / 256)
  }

  /** The channel fading in across the region. */
  function ChannelT(h: byte, s: byte, v: byte): byte
  {
    Narrow(v * (255 - s * (255 - Remainder(h)) / 256) / 256)
  }

  /** The 8-bit HSV to RGB conversion. The intensity byte is always 255,
      zero saturation gives gray, and otherwise the region decides which
      channel carries the full value `v`, which sits at the floor p, and
      which moves across the region: rising (t) in the even regions and
      falling (q) in the odd ones, so the hue passes red, yellow, green,
      cyan, blue and magenta in turn. */
  function Hsv(h: byte, s: byte, v: byte): (px: Pixel)
    ensures px.i == 255
    ensures s == 0 ==> px.r == v && px.g == v && px.b == v
    ensures s != 0 ==> (Region(h) == 0 || Region(h) == 5 ==> px.r == v)
    ensures s != 0 ==> (Region(h) == 1 || Region(h) == 2 ==> px.g == v)
    ensures s != 0 ==> (Region(h) == 3 || Region(h) == 4 ==> px.b == v)
    ensures s != 0 ==> (Region(h) == 0 || Region(h) == 1 ==> px.b == ChannelP(s, v))
    ensures s != 0 ==> (Region(h) == 2 || Region(h) == 3 ==> px.r == ChannelP(s, v))
    ensures s != 0 ==> (Region(h) == 4 || Region(h) == 5 ==> px.g == ChannelP(s, v))
    ensures s != 0 && Region(h) == 0 ==> px.g == ChannelT(h, s, v)
    ensures s != 0 && Region(h) == 2 ==> px.b == ChannelT(h, s, v)
    ensures s != 0 && Region(h) == 4 ==> px.r == ChannelT(h, s, v)
    ensures s != 0 && Region(h) == 1 ==> px.r == ChannelQ(h, s, v)
    ensures s != 0 && Region(h) == 3 ==> px.g == ChannelQ(h, s, v)
    ensures s != 0 && Region(h) == 5 ==> px.b == ChannelQ(h, s, v)
  {
    if s == 0 then Pixel(b := v, g := v, r := v, i := 255)
    else
      var p, q, t := ChannelP(s, v), ChannelQ(h, s, v), ChannelT(h, s, v);
      match Region(h)
      case 0 => Pixel(b := p, g := t, r := v, i := 255)
      case 1 => Pixel(b := p, g := v, r := q, i := 255)
      case 2 => Pixel(b := t, g := v, r := p, i := 255)
      case 3 => Pixel(b := v, g := q, r := p, i := 255)
      case 4 => Pixel(b := v, g := p, r := t, i := 255)
      case _ => Pixel(b := q, g := p, r := v, i := 255)
  }

  lemma MulMono(a: int, b: int, c: int)
    requires 0 <= c && a <= b
    ensures c * a <= c * b
  {
  }

  lemma DivMono(a: int, b: int)
    requires 0 <= a <= b
    ensures a / 256 <= b / 256
  {
  }

  /** `(x * c) >> 8` never exceeds `x` when `c <= 256`. */
  lemma ScaleBelow(x: nat, c: nat)
    requires c <= 256
    ensures x * c / 256 <= x
  {
    MulMono(c, 256, x);
    DivMono(x * c, x * 256);
  }

  /** `(v * x) >> 8` fits in a byte, with room to spare, whenever both
      factors do. */
  lemma ShiftedProduct(v: byte, x: int)
    requires 0 <= x <= 255
    ensures 0 <= v * x / 256 <= 254
  {
    MulMono(x, 255, v);
    MulMono(v, 255, 255);
    DivMono(v * x, 255 * 255);
  }

  lemma RegionBounds(h: byte)
    ensures h / 43 <= 5 && Region(h) == h / 43
    ensures (h - Region(h) * 43) * 6 <= 252 && Remainder(h) == (h % 43) * 6
  {
  }

  /** Every intermediate of `Hsv` fits in its `unsigned char`: the region
      is at most 5, the remainder at most 252, and p, q, t at most 254, so
      none of the narrowing stores changes a value. */
  lemma HsvNoOverflow(h: byte, s: byte, v: byte)
    ensures h / 43 <= 5 && Region(h) == h / 43
    ensures (h - Region(h) * 43) * 6 <= 252 && Remainder(h) == (h % 43) * 6
    ensures v * (255 - s) / 256 <= 254 && ChannelP(s, v) == v * (255 - s) / 256
    ensures s * Remainder(h) / 256 <= 254
    ensures v * (255 - s * Remainder(h) / 256) / 256 <= 254
    ensures ChannelQ(h, s, v) == v * (255 - s * Remainder(h) / 256) / 256
    ensures s * (255 - Remainder(h)) / 256 <= 254
    ensures v * (255 - s * (255 - Remainder(h)) / 256) / 256 <= 254
    ensures ChannelT(h, s, v) == v * (255 - s * (255 - Remainder(h)) / 256) / 256
  {
    RegionBounds(h);
    var rem := Remainder(h);
    ShiftedProduct(v, 255 - s);
    ShiftedProduct(s, rem);
    ShiftedProduct(v, 255 - s * rem / 256);
    ShiftedProduct(s, 255 - rem);
    ShiftedProduct(v, 255 - s * (255 - rem) / 256);
  }

  /** `(v * x) >> 8` grows with `x`. */
  lemma ShiftMonotone(v: byte, x: int, y: int)
    requires 0 <= x <= y
    ensures v * x / 256 <= v * y / 256
  {
    MulMono(x, y, v);
    DivMono(v * x, v * y);
  }

  /** The arithmetic behind `HsvChannelOrder`: shrinking the subtrahend
      `s` to `(s * rem) >> 8` can only raise the product, and the product
      shifted by 8 never exceeds `v`. */
  lemma ShiftedOrder(v: byte, s: byte, rem: int)
    requires 0 <= rem <= 255
    ensures v * (255 - s) / 256 <= v * (255 - s * rem / 256) / 256 <= v
  {
    ScaleBelow(s, rem);
    var d := s * rem / 256;
    ShiftMonotone(v, 255 - s, 255 - d);
    ScaleBelow(v, 255 - d);
  }

  /** p is the floor of the three computed channels and none of them
      exceeds the value `v`. */
  lemma HsvChannelOrder(h: byte, s: byte, v: byte)
    ensures ChannelP(s, v) <= ChannelQ(h, s, v) <= v
    ensures ChannelP(s, v) <= ChannelT(h, s, v) <= v
  {
    HsvNoOverflow(h, s, v);
    ShiftedOrder(v, s, Remainder(h));
    ShiftedOrder(v, s, 255 - Remainder(h));
  }

  /** In HSV terms: the brightest channel of the result is the value `v`,
      and for a saturated colour the dimmest channel is p, `v` scaled down
      by the saturation. */
  lemma HsvValueIsBrightest(h: byte, s: byte, v: byte)
    ensures Brightest(Hsv(h, s, v)) == v
    ensures s != 0 ==> Dimmest(Hsv(h, s, v)) == ChannelP(s, v)
  {
    HsvChannelOrder(h, s, v);
  }

  /** `(255 * v) >> 8` is one below `v` for every non-zero `v`. */
  lemma TruncatedFull(v: byte)
    ensures 255 * v / 256 == if v == 0 then 0 else v - 1
  {
    if v != 0 {
      assert 256 * (v - 1) <= 255 * v < 256 * v;
    }
  }

  /** The channels at the first hue `43 * k` of region `k`, at full
      saturation. */
  lemma RegionStart(k: int, v: byte)
    requires 0 <= k <= 5
    ensures Region(43 * k) == k && Remainder(43 * k) == 0
    ensures ChannelP(255, v) == 0 && ChannelT(43 * k, 255, v) == 0
    ensures ChannelQ(43 * k, 255, v) == if v == 0 then 0 else v - 1
  {
    HsvNoOverflow(43 * k, 255, v);
    TruncatedFull(v);
    assert v * (255 - 255 * 255 / 256) / 256 == v / 256 == 0;
  }

  /** At the first hue of each region (`h` = 0, 43, 86, 129, 172, 215),
      at full saturation, the rising channel t is 0 and the falling
      channel q is one step below `v` (truncation of `(255 * v) >> 8`), so
      only regions 0, 2 and 4 start at a pure primary. */
  lemma HsvRegionStarts(h: byte, v: byte)
    requires h % 43 == 0
    ensures var px := Hsv(h, 255, v);
      var dim := if v == 0 then 0 else v - 1;
      px == match h / 43
        case 0 => Pixel(b := 0, g := 0, r := v, i := 255)
        case 1 => Pixel(b := 0, g := v, r := dim, i := 255)
        case 2 => Pixel(b := 0, g := v, r := 0, i := 255)
        case 3 => Pixel(b := v, g := dim, r := 0, i := 255)
        case 4 => Pixel(b := v, g := 0, r := 0, i := 255)
        case _ => Pixel(b := dim, g := 0, r := v, i := 255)
  {
    RegionStart(h / 43, v);
  }
}

=== FILE: config.dfy ===
/** Compile-time constants of the steering-wheel firmware and the value
    ranges they imply. */
module Config {

  /** Pixels on the main (tachometer) strip and on the auxiliary strip. */
  const MAIN_LED_COUNT: nat := 16
  const AUX_LED_COUNT: nat := 4

  /** Physical buttons, one entry each in the `buttons` array. */
  const BUTTON_COUNT: nat := 6

  /** LED frames rendered per second; the renderer's timer advances by
      `1 / LED_RATE` seconds per frame. */
  const LED_RATE: nat := 60

  const MIN_RPM: int := 5800
  const FLASH_RPM: int := 13800
  const MONEY_SHIFT_THRESHOLD: int := 10200

  /** Flash period of the over-rev and over-temperature indicators, in seconds. */
  const FLASH_TIME_S: real := 0.15

  /** Engine temperatures arrive from the ECU as tenths of a degree. */
  const ENGINE_COLD_TEMP: int := 50 * 10
  const ENGINE_HOT_TEMP: int := 95 * 10
  const ENGINE_VERY_HOT_TEMP: int := 105 * 10

  /** Offset of the little-endian RPM word in the ECU frame. */
  const ECU_RPM_BYTE: nat := 0

  /** Seconds the startup hue animation runs before the sweep starts. */
  const STARTUP_ANIM_TIME_S: real := 3.0

  /** Seconds the settings button must be held to toggle the brightness. */
  const DIM_HOLD_TIME_S: real := 3.0

  /** A global dimmer in (0, 1]; every emitted colour is scaled by it. */
  type Brightness = x: real | 0.0 < x <= 1.0 witness 1.0

  const DEFAULT_BRIGHTNESS: Brightness := 1.0
  const LOW_BRIGHTNESS: Brightness := 0.1

  /** A fraction in [0, 1], such as the square of a sine. */
  type Unit = x: real | 0.0 <= x <= 1.0

  /** Engine speed covered by one tachometer pixel. */
  const RPM_PER_PIXEL: int := 500

  /** The tachometer band is entered above MIN_RPM, downshifts are refused
      above the money-shift threshold, and the strip flashes above
      FLASH_RPM, in that order. */
  lemma RpmThresholdsOrdered()
    ensures 0 < MIN_RPM < MONEY_SHIFT_THRESHOLD < FLASH_RPM
  {
  }

  /** The four temperature bands are non-empty and ordered. */
  lemma TemperatureThresholdsOrdered()
    ensures 0 < ENGINE_COLD_TEMP < ENGINE_HOT_TEMP < ENGINE_VERY_HOT_TEMP
  {
  }

  /** The low preset is a proper dimming of the default preset. */
  lemma BrightnessPresetsOrdered()
    ensures 0.0 < LOW_BRIGHTNESS < DEFAULT_BRIGHTNESS == 1.0
  {
  }

  /** The tachometer range divides evenly among the main-strip pixels:
      each pixel covers 500 RPM, and one flash period is a whole number of
      frames. */
  lemma RangesDivideEvenly()
    ensures (FLASH_RPM - MIN_RPM) % MAIN_LED_COUNT == 0
    ensures (FLASH_RPM - MIN_RPM) / MAIN_LED_COUNT == RPM_PER_PIXEL
    ensures RPM_PER_PIXEL * MAIN_LED_COUNT == FLASH_RPM - MIN_RPM
    ensures FLASH_TIME_S * LED_RATE as real == 9.0
  {
  }
}

=== FILE: controls.dfy ===
/** The work items the event queue runs for CAN reception and button
    presses: each is a step from the wheel state to a new wheel state and
    at most one outgoing command frame. */
module Controls {
  import opened Config
  import opened Can
  import opened Vehicle

  /** An ECU frame stores its engine speed and marks telemetry as seen;
      nothing else in the record changes. */
  function SteeringWheelReceived(w: Wheel, msg: CanMessage): (r: Wheel)
    ensures r.rpm == DecodeRpm(msg.data) && r.canReceived
    ensures r == w.(rpm := r.rpm, canReceived := true)
    ensures Valid(w) ==> Valid(r)
  {
    w.(rpm := DecodeRpm(msg.data), canReceived := true)
  }

  /** One frame read off the bus: only the ECU identifier is acted on. */
  function ReceiveFrame(w: Wheel, msg: CanMessage): (r: Wheel)
    ensures msg.id != Ecu1Id ==> r == w
    ensures msg.id == Ecu1Id ==> r == w.(rpm := DecodeRpm(msg.data), canReceived := true)
  {
    if msg.id == Ecu1Id then SteeringWheelReceived(w, msg) else w
  }

  /** Frame `k` is the last ECU frame of the batch. */
  predicate IsLastEcuFrame(frames: seq<CanMessage>, k: int)
  {
    && 0 <= k < |frames|
    && frames[k].id == Ecu1Id
    && forall j | k < j < |frames| :: frames[j].id != Ecu1Id
  }

  /** Draining every frame the controller holds, in arrival order: a batch
      without an ECU frame changes nothing, and otherwise the last ECU
      frame decides the engine speed. */
  function CanReceived(w: Wheel, frames: seq<CanMessage>): (r: Wheel)
    ensures (forall k | 0 <= k < |frames| :: frames[k].id != Ecu1Id) ==> r == w
    ensures forall k | IsLastEcuFrame(frames, k) ::
      r == w.(rpm := DecodeRpm(frames[k].data), canReceived := true)
    ensures r == w.(rpm := r.rpm, canReceived := r.canReceived)
    decreases |frames|
  {
    if |frames| == 0 then w
    else
      var rest := frames[1..];
      assert forall k | IsLastEcuFrame(frames, k) && 0 < k :: IsLastEcuFrame(rest, k - 1);
      CanReceived(ReceiveFrame(w, frames[0]), rest)
  }

  /** Upshift: send the upshift command with the current DRS flag; the
      state is read, not written. */
  function Upshift(w: Wheel): (r: (Wheel, Option<CanMessage>))
    ensures r.0 == w
    ensures r.1.Some? && r.1.value.id == SteeringWheelId
    ensures r.1.Some? ==> DecodeCommand(r.1.value) == Command(w.drsEngaged, true, false)
  {
    (w, Some(CommandFrame(w.drsEngaged, true, false)))
  }

  /** Downshift with the money-shift guard: above the threshold no frame
      at all is sent; at or below it the downshift command goes out. */
  function Downshift(w: Wheel): (r: (Wheel, Option<CanMessage>))
    ensures r.0 == w
    ensures r.1.Some? <==> w.rpm <= MONEY_SHIFT_THRESHOLD
    ensures r.1.Some? ==> r.1.value.id == SteeringWheelId
    ensures r.1.Some? ==> DecodeCommand(r.1.value) == Command(w.drsEngaged, false, true)
  {
    if w.rpm > MONEY_SHIFT_THRESHOLD then (w, None)
    else (w, Some(CommandFrame(w.drsEngaged, false, true)))
  }

  /** DRS on: record it, then announce it alone. */
  function DrsOn(w: Wheel): (r: (Wheel, Option<CanMessage>))
    ensures r.0 == w.(drsEngaged := true)
    ensures r.1.Some? && DecodeCommand(r.1.value) == Command(true, false, false)
    ensures r.0.drsEngaged == DecodeCommand(r.1.value).drs
  {
    (w.(drsEngaged := true), Some(CommandFrame(true, false, false)))
  }

  /** DRS off: record it, then send the all-clear frame. */
  function DrsOff(w: Wheel): (r: (Wheel, Option<CanMessage>))
    ensures r.0 == w.(drsEngaged := false)
    ensures r.1.Some? && DecodeCommand(r.1.value) == Command(false, false, false)
    ensures r.0.drsEngaged == DecodeCommand(r.1.value).drs
  {
    (w.(drsEngaged := false), Some(CommandFrame(false, false, false)))
  }

  /** The brightness toggle: the default preset dims to the low one and
      any other setting returns to the default, so the result is always a
      preset and always differs from the setting it replaces. */
  function DimLeds(w: Wheel): (r: Wheel)
    ensures r == w.(brightness := r.brightness)
    ensures r.brightness == DEFAULT_BRIGHTNESS || r.brightness == LOW_BRIGHTNESS
    ensures r.brightness != w.brightness
    ensures r.brightness == LOW_BRIGHTNESS <==> w.brightness == DEFAULT_BRIGHTNESS
  {
    if w.brightness == DEFAULT_BRIGHTNESS then w.(brightness := LOW_BRIGHTNESS)
    else w.(brightness := DEFAULT_BRIGHTNESS)
  }

  /** Toggling twice restores either preset. */
  lemma DimTwiceRestores(w: Wheel)
    requires w.brightness == DEFAULT_BRIGHTNESS || w.brightness == LOW_BRIGHTNESS
    ensures DimLeds(DimLeds(w)) == w
  {
  }

  /** The one-shot long-press timer behind the brightness toggle. */
  datatype DimTimer = Disarmed | Armed

  /** Settings press: (re)arm the timer; attaching replaces any earlier
      arming. */
  function SettingsPressed(t: DimTimer): (r: DimTimer)
    ensures r.Armed?
    ensures forall w :: DimTimerFires(w, r).0 == DimLeds(w)
  {
    Armed
  }

  /** Settings release: cancel the timer if it has not fired. */
  function SettingsReleased(t: DimTimer): (r: DimTimer)
    ensures r.Disarmed?
    ensures forall w :: DimTimerFires(w, r).0 == w
  {
    Disarmed
  }

  /** The timer expiring: an armed timer toggles the brightness and
      disarms itself; a cancelled one does nothing. */
  function DimTimerFires(w: Wheel, t: DimTimer): (r: (Wheel, DimTimer))
    ensures r.1.Disarmed?
    ensures r.0 == w.(brightness := r.0.brightness)
    ensures r.0.brightness != w.brightness <==> t.Armed?
  {
    if t.Armed? then (DimLeds(w), Disarmed) else (w, Disarmed)
  }

  /** A press released before the timer fires has no effect; a press held
      until it fires toggles the brightness. */
  lemma LongPressOnly(w: Wheel, t: DimTimer)
    ensures DimTimerFires(w, SettingsReleased(SettingsPressed(t))).0 == w
    ensures DimTimerFires(w, SettingsPressed(t)).0 == DimLeds(w)
  {
  }

  /** Button-test callback for a press (falling edge, the inputs are
      pulled up): only entry `k` changes, and it becomes true. */
  function ButtonTestFall(w: Wheel, k: nat): (r: Wheel)
    requires k < BUTTON_COUNT
    ensures r.buttons[k]
    ensures forall j | 0 <= j < BUTTON_COUNT && j != k :: r.buttons[j] == w.buttons[j]
    ensures r == w.(buttons := r.buttons)
  {
    w.(buttons := w.buttons[k := true])
  }

  /** Button-test callback for a release (rising edge): only entry `k`
      changes, and it becomes false. */
  function ButtonTestRise(w: Wheel, k: nat): (r: Wheel)
    requires k < BUTTON_COUNT
    ensures !r.buttons[k]
    ensures forall j | 0 <= j < BUTTON_COUNT && j != k :: r.buttons[j] == w.buttons[j]
    ensures r == w.(buttons := r.buttons)
  {
    w.(buttons := w.buttons[k := false])
  }

  /** Every handler keeps the record `Valid`. */
  lemma HandlersPreserveValid(w: Wheel, frames: seq<CanMessage>, t: DimTimer, k: nat)
    requires Valid(w) && k < BUTTON_COUNT
    ensures Valid(CanReceived(w, frames))
    ensures Valid(Upshift(w).0) && Valid(Downshift(w).0)
    ensures Valid(DrsOn(w).0) && Valid(DrsOff(w).0)
    ensures Valid(DimTimerFires(w, t).0)
    ensures Valid(ButtonTestFall(w, k)) && Valid(ButtonTestRise(w, k))
  {
    var r := CanReceived(w, frames);
    if forall j | 0 <= j < |frames| :: frames[j].id != Ecu1Id {
    } else {
      var k' := LastEcuFrameExists(frames);
      assert r == w.(rpm := DecodeRpm(frames[k'].data), canReceived := true);
    }
  }

  /** A batch holding an ECU frame has a last one. */
  lemma {:induction false} LastEcuFrameExists(frames: seq<CanMessage>) returns (k: int)
    requires exists j | 0 <= j < |frames| :: frames[j].id == Ecu1Id
    ensures IsLastEcuFrame(frames, k)
    decreases |frames|
  {
    var n := |frames| - 1;
    if frames[n].id == Ecu1Id {
      k := n;
    } else {
      var j :| 0 <= j < |frames| && frames[j].id == Ecu1Id;
      assert frames[..n][j] == frames[j];
      k := LastEcuFrameExists(frames[..n]);
      assert forall i | k < i < n :: frames[..n][i] == frames[i];
    }
  }
}

=== FILE: dispatch.dfy ===
/** The firmware's event loop: interrupts queue work items that run one at
    a time on the event thread, and which handler a button edge reaches
    depends on how far `main` has got through boot. */
module Dispatch {
  import opened Config
  import opened Color
  import opened Can
  import V = Vehicle
  import C = Controls
  import R = Renderer

  /** The six buttons, in the order of the test-mode record. */
  datatype Button = UpshiftBtn | DownshiftBtn | DrsBtn | SettingsBtn | Aux1Btn | Aux2Btn

  function Index(b: Button): (k: nat)
    ensures k < BUTTON_COUNT
  {
    match b
    case UpshiftBtn => 0
    case DownshiftBtn => 1
    case DrsBtn => 2
    case SettingsBtn => 3
    case Aux1Btn => 4
    case Aux2Btn => 5
  }

  /** Distinct buttons report to distinct entries of the test record. */
  lemma IndexInjective(b: Button, b': Button)
    ensures Index(b) == Index(b') <==> b == b'
  {
  }

  /** The buttons are pulled up: a press is a falling edge, a release a
      rising one. */
  datatype Edge = Fall | Rise

  /** How far boot has got. `Booting`: the startup animation plays and only
      a settings release is wired (to enter test mode). `Testing`: test
      mode is on and every button feeds the test record. `Running`: the
      normal handlers are wired; `testWired` records whether test mode ran,
      since its aux callbacks are never detached. */
  datatype Phase = Booting | Testing | Running(testWired: bool)

  /** One queued work item. `LedTick` carries the searching-pulse level and
      the contents of uninitialised locals for that frame; `BootEnd` is
      `main` reaching the end of the startup wait (and, in test mode,
      polling the exit combination). */
  datatype WorkItem =
    | CanRx(frames: seq<CanMessage>)
    | LedTick(pulse: Unit, junk: Pixel)
    | ButtonEdge(button: Button, edge: Edge)
    | DimTimeout
    | BootEnd

  /** Everything the work items read and write. */
  datatype System = System(wheel: V.Wheel, leds: R.Leds, dimTimer: C.DimTimer, phase: Phase)

  const Initial: System := System(V.Initial, R.Initial, C.Disarmed, Booting)

  predicate NoButtons(w: V.Wheel)
  {
    forall k | 0 <= k < BUTTON_COUNT :: !w.buttons[k]
  }

  /** What every step keeps: a valid record, the renderer in the mode of
      the boot phase, no long-press timing outside normal operation, and an
      untouched test record unless test mode ran. */
  predicate Inv(s: System)
  {
    && V.Valid(s.wheel)
    && (s.phase.Booting? ==> (s.leds.mode == R.StartupAnim || s.leds.mode == R.StartupSweep))
    && (s.phase.Testing? ==> s.leds.mode == R.ButtonTest)
    && (s.phase.Running? ==> s.leds.mode == R.Tachometer)
    && (!s.phase.Running? ==> s.dimTimer.Disarmed?)
    && (s.phase == Booting || s.phase == Running(false) ==> NoButtons(s.wheel))
  }

  lemma InitialInv()
    ensures Inv(Initial)
    ensures Initial.leds.mode == R.StartupAnim && Initial.leds.ticks == 0
  {
    V.InitialValid();
  }

  /** `test_mode`: set the flag, show the button test and wire every
      button to its test callback. */
  function EnterTestMode(s: System): (r: System)
    ensures r.phase == Testing && r.leds.mode == R.ButtonTest
    ensures r.wheel == s.wheel && r.dimTimer == s.dimTimer
  {
    s.(phase := Testing, leds := R.UpdateState(s.leds, R.ButtonTest))
  }

  /** A test callback: a press sets the button's entry, a release clears
      it. */
  function TestCallback(w: V.Wheel, b: Button, e: Edge): (r: V.Wheel)
    ensures r.buttons[Index(b)] <==> e == Fall
    ensures forall j | 0 <= j < BUTTON_COUNT && j != Index(b) :: r.buttons[j] == w.buttons[j]
    ensures r == w.(buttons := r.buttons)
  {
    if e == Fall then C.ButtonTestFall(w, Index(b)) else C.ButtonTestRise(w, Index(b))
  }

  /** The end of boot: leave test mode only on the exit combination
      (upshift and downshift both held), then wire the normal handlers and
      switch the renderer to the tachometer. */
  function FinishBoot(s: System): (r: System)
    ensures s.phase.Booting? ==> r.phase == Running(false) && r.leds.mode == R.Tachometer
    ensures s.phase.Testing? && s.wheel.buttons[0] && s.wheel.buttons[1] ==>
      r.phase == Running(true) && r.leds.mode == R.Tachometer
    ensures s.phase.Testing? && !(s.wheel.buttons[0] && s.wheel.buttons[1]) ==> r == s
    ensures s.phase.Running? ==> r == s
    ensures r.wheel == s.wheel && r.dimTimer == s.dimTimer
  {
    match s.phase
    case Booting => s.(phase := Running(false), leds := R.UpdateState(s.leds, R.Tachometer))
    case Testing =>
      if s.wheel.buttons[0] && s.wheel.buttons[1] then
        s.(phase := Running(true), leds := R.UpdateState(s.leds, R.Tachometer))
      else s
    case Running(_) => s
  }

  /** The command a button edge asks for in normal operation: a shift
      carries the current DRS flag, and a DRS edge sets or clears it. */
  function EdgeCommand(b: Button, e: Edge, drs: bool): Command
  {
    match b
    case UpshiftBtn => Command(drs, true, false)
    case DownshiftBtn => Command(drs, false, true)
    case _ => Command(e == Fall, false, false)
  }

  /** A button edge in normal operation. Upshift and downshift act on the
      press and ignore the release; DRS follows the button; settings arms
      and cancels the long-press timer; the aux buttons reach only the test
      callbacks left from test mode, if it ran. */
  function RunningEdge(s: System, b: Button, e: Edge, testWired: bool): (r: (System, Option<CanMessage>))
    ensures r.0.phase == s.phase && r.0.leds == s.leds
    ensures r.1.Some? <==>
      || (b == UpshiftBtn && e == Fall)
      || (b == DownshiftBtn && e == Fall && s.wheel.rpm <= MONEY_SHIFT_THRESHOLD)
      || b == DrsBtn
    ensures r.1.Some? ==> DecodeCommand(r.1.value) == EdgeCommand(b, e, s.wheel.drsEngaged)
  {
    var w := s.wheel;
    match b
    case UpshiftBtn =>
      if e == Fall then var (w', m) := C.Upshift(w); (s.(wheel := w'), m) else (s, None)
    case DownshiftBtn =>
      if e == Fall then var (w', m) := C.Downshift(w); (s.(wheel := w'), m) else (s, None)
    case DrsBtn =>
      var (w', m) := if e == Fall then C.DrsOn(w) else C.DrsOff(w);
      (s.(wheel := w'), m)
    case SettingsBtn =>
      (s.(dimTimer := if e == Fall then C.SettingsPressed(s.dimTimer) else C.SettingsReleased(s.dimTimer)), None)
    case _ =>
      if testWired then (s.(wheel := TestCallback(w, b, e)), None) else (s, None)
  }

  /** Running one work item. Only button edges in normal operation send
      frames, each a 3-byte command to the actuator, and normal operation
      is never left. */
  function Step(s: System, item: WorkItem): (r: (System, Option<CanMessage>))
    ensures r.1.Some? ==> s.phase.Running? && item.ButtonEdge?
    ensures r.1.Some? ==> r.1.value.id == SteeringWheelId && r.1.value.len == 3
    ensures s.phase.Running? ==> r.0.phase == s.phase
    ensures !item.BootEnd? && !item.ButtonEdge? ==> r.0.phase == s.phase
    ensures s.phase.Testing? && item.ButtonEdge? ==>
      r.0 == s.(wheel := TestCallback(s.wheel, item.button, item.edge))
    ensures r.1.Some? && DecodeCommand(r.1.value).downshift ==>
      item == ButtonEdge(DownshiftBtn, Fall) && s.wheel.rpm <= MONEY_SHIFT_THRESHOLD
  {
    match item
    case CanRx(frames) => (s.(wheel := C.CanReceived(s.wheel, frames)), None)
    case LedTick(pulse, junk) => (s.(leds := R.UpdateLeds(s.leds, s.wheel, pulse, junk)), None)
    case DimTimeout =>
      var (w', t') := C.DimTimerFires(s.wheel, s.dimTimer);
      (s.(wheel := w', dimTimer := t'), None)
    case BootEnd => (FinishBoot(s), None)
    case ButtonEdge(b, e) =>
      match s.phase
      case Booting =>
        if b == SettingsBtn && e == Rise then (EnterTestMode(s), None) else (s, None)
      case Testing => (s.(wheel := TestCallback(s.wheel, b, e)), None)
      case Running(testWired) => RunningEdge(s, b, e, testWired)
  }

  /** Every work item keeps the invariant. */
  lemma StepPreservesInv(s: System, item: WorkItem)
    requires Inv(s)
    ensures Inv(Step(s, item).0)
  {
    var r := Step(s, item).0;
    match item
    case CanRx(frames) =>
      C.HandlersPreserveValid(s.wheel, frames, s.dimTimer, 0);
      var w' := C.CanReceived(s.wheel, frames);
      assert r == s.(wheel := w') && w'.buttons == s.wheel.buttons;
    case LedTick(pulse, junk) =>
      assert r == s.(leds := R.UpdateLeds(s.leds, s.wheel, pulse, junk));
    case DimTimeout =>
      C.HandlersPreserveValid(s.wheel, [], s.dimTimer, 0);
      assert r.wheel == C.DimTimerFires(s.wheel, s.dimTimer).0;
    case BootEnd =>
      assert r == FinishBoot(s);
    case ButtonEdge(b, e) =>
      EdgePreservesInv(s, b, e);
  }

  lemma EdgePreservesInv(s: System, b: Button, e: Edge)
    requires Inv(s)
    ensures Inv(Step(s, ButtonEdge(b, e)).0)
  {
    var r := Step(s, ButtonEdge(b, e)).0;
    C.HandlersPreserveValid(s.wheel, [], s.dimTimer, Index(b));
    match s.phase
    case Booting =>
      assert r == s || r == EnterTestMode(s);
    case Testing =>
      assert r == s.(wheel := TestCallback(s.wheel, b, e));
    case Running(testWired) =>
      var w := s.wheel;
      assert r == RunningEdge(s, b, e, testWired).0;
      assert r.wheel in {w, C.Upshift(w).0, C.Downshift(w).0, C.DrsOn(w).0, C.DrsOff(w).0, TestCallback(w, b, e)};
  }

  /** Running work items in queue order; the result carries every frame
      sent, in order. */
  function Run(s: System, items: seq<WorkItem>): (r: (System, seq<CanMessage>))
    ensures forall k | 0 <= k < |r.1| :: r.1[k].id == SteeringWheelId && r.1[k].len == 3
    ensures |r.1| <= |items|
    decreases |items|
  {
    if |items| == 0 then (s, [])
    else
      var (s1, m) := Step(s, items[0]);
      var (s2, sent) := Run(s1, items[1..]);
      (s2, (if m.Some? then [m.value] else []) + sent)
  }

  /** The invariant holds after any sequence of work items. */
  lemma {:induction false} RunPreservesInv(s: System, items: seq<WorkItem>)
    requires Inv(s)
    ensures Inv(Run(s, items).0)
    decreases |items|
  {
    if |items| > 0 {
      StepPreservesInv(s, items[0]);
      RunPreservesInv(Step(s, items[0]).0, items[1..]);
    }
  }

  /** Until `main` finishes boot nothing is sent: no frame leaves the wheel
      during the startup animation or the button test. */
  lemma {:induction false} SilentUntilBootEnds(s: System, items: seq<WorkItem>)
    requires !s.phase.Running?
    requires forall k | 0 <= k < |items| :: !items[k].BootEnd?
    ensures Run(s, items).1 == []
    ensures !Run(s, items).0.phase.Running?
    decreases |items|
  {
    if |items| > 0 {
      var s1 := Step(s, items[0]).0;
      assert !s1.phase.Running?;
      assert forall k | 0 <= k < |items| - 1 :: items[1..][k] == items[k + 1];
      SilentUntilBootEnds(s1, items[1..]);
    }
  }

  /** The money-shift guard in normal operation: a downshift press sends a
      command exactly when the engine is at or below the threshold, and that
      command asks for a downshift alone (with the current DRS flag). */
  lemma MoneyShiftGuard(s: System)
    requires s.phase.Running?
    ensures var (_, m) := Step(s, ButtonEdge(DownshiftBtn, Fall));
      && (m.Some? <==> s.wheel.rpm <= MONEY_SHIFT_THRESHOLD)
      && (m.Some? ==> DecodeCommand(m.value) == Command(s.wheel.drsEngaged, false, true))
  {
  }

  /** The money-shift guard over a whole run: every frame that asks for a
      downshift answers a downshift press made while the engine was at or
      below the threshold. */
  lemma {:induction false} DownshiftsGuarded(s: System, items: seq<WorkItem>)
    ensures forall m | m in Run(s, items).1 && DecodeCommand(m).downshift ::
      exists j | 0 <= j < |items| ::
        items[j] == ButtonEdge(DownshiftBtn, Fall) && Run(s, items[..j]).0.wheel.rpm <= MONEY_SHIFT_THRESHOLD
    decreases |items|
  {
    if |items| > 0 {
      var (s1, m0) := Step(s, items[0]);
      var rest := items[1..];
      DownshiftsGuarded(s1, rest);
      forall m | m in Run(s, items).1 && DecodeCommand(m).downshift
        ensures exists j | 0 <= j < |items| ::
          items[j] == ButtonEdge(DownshiftBtn, Fall) && Run(s, items[..j]).0.wheel.rpm <= MONEY_SHIFT_THRESHOLD
      {
        if m0.Some? && m == m0.value {
          assert items[..0] == [];
          assert Run(s, items[..0]).0 == s;
        } else {
          assert m in Run(s1, rest).1;
          var j :| 0 <= j < |rest| && rest[j] == ButtonEdge(DownshiftBtn, Fall)
            && Run(s1, rest[..j]).0.wheel.rpm <= MONEY_SHIFT_THRESHOLD;
          RunPrefix(s, items, j);
          assert items[j + 1] == rest[j];
        }
      }
    }
  }

  /** Running the first `j + 1` items is the first step followed by the
      next `j`. */
  lemma RunPrefix(s: System, items: seq<WorkItem>, j: nat)
    requires j < |items|
    ensures Run(s, items[..j + 1]).0 == Run(Step(s, items[0]).0, items[1..][..j]).0
  {
    assert items[..j + 1][0] == items[0];
    assert items[..j + 1][1..] == items[1..][..j];
  }

  /** The long press: in normal operation, a settings press followed by
      the timeout toggles the brightness, and a press released before the
      timeout leaves it unchanged. */
  lemma LongPressToggles(s: System)
    requires s.phase.Running? && Inv(s)
    ensures Step(Step(s, ButtonEdge(SettingsBtn, Fall)).0, DimTimeout).0.wheel == C.DimLeds(s.wheel)
    ensures Step(Step(Step(s, ButtonEdge(SettingsBtn, Fall)).0, ButtonEdge(SettingsBtn, Rise)).0, DimTimeout).0.wheel == s.wheel
  {
  }

  /** Once the timer is cancelled, no sequence of work items without a
      settings press changes the brightness. */
  lemma {:induction false} ReleasedTimerNeverDims(s: System, items: seq<WorkItem>)
    requires s.dimTimer.Disarmed?
    requires forall k | 0 <= k < |items| :: items[k] != ButtonEdge(SettingsBtn, Fall)
    ensures Run(s, items).0.wheel.brightness == s.wheel.brightness
    ensures Run(s, items).0.dimTimer.Disarmed?
    decreases |items|
  {
    if |items| > 0 {
      var s1 := Step(s, items[0]).0;
      StepKeepsBrightness(s, items[0]);
      assert forall k | 0 <= k < |items| - 1 :: items[1..][k] == items[k + 1];
      ReleasedTimerNeverDims(s1, items[1..]);
    }
  }

  /** With the timer cancelled, any work item but a settings press keeps
      the brightness and the timer cancelled. */
  lemma StepKeepsBrightness(s: System, item: WorkItem)
    requires s.dimTimer.Disarmed?
    requires item != ButtonEdge(SettingsBtn, Fall)
    ensures Step(s, item).0.wheel.brightness == s.wheel.brightness
    ensures Step(s, item).0.dimTimer.Disarmed?
  {
    var r := Step(s, item).0;
    match item
    case CanRx(frames) =>
      assert r == s.(wheel := C.CanReceived(s.wheel, frames));
    case LedTick(pulse, junk) =>
      assert r == s.(leds := R.UpdateLeds(s.leds, s.wheel, pulse, junk));
    case DimTimeout =>
    case BootEnd =>
      assert r == FinishBoot(s);
    case ButtonEdge(b, e) =>
      match s.phase
      case Booting =>
      case Testing =>
      case Running(testWired) =>
        assert r == RunningEdge(s, b, e, testWired).0;
  }

  /** No work item writes the engine temperature. */
  lemma StepKeepsEct(s: System, item: WorkItem)
    ensures Step(s, item).0.wheel.ect == s.wheel.ect
  {
    var r := Step(s, item).0;
    match item
    case CanRx(frames) =>
      assert r == s.(wheel := C.CanReceived(s.wheel, frames));
    case LedTick(pulse, junk) =>
      assert r == s.(leds := R.UpdateLeds(s.leds, s.wheel, pulse, junk));
    case DimTimeout =>
    case BootEnd =>
      assert r == FinishBoot(s);
    case ButtonEdge(b, e) =>
      match s.phase
      case Booting =>
      case Testing =>
      case Running(testWired) =>
        assert r == RunningEdge(s, b, e, testWired).0;
  }

  /** The temperature is never received, so from boot it stays 0 and the
      temperature pixel stays in the cold band whatever happens. */
  lemma {:induction false} TemperatureStaysCold(s: System, items: seq<WorkItem>)
    requires s.wheel.ect == Initial.wheel.ect
    ensures Run(s, items).0.wheel.ect == 0
    ensures R.Band(Run(s, items).0.wheel.ect) == R.Cold
    decreases |items|
  {
    if |items| > 0 {
      StepKeepsEct(s, items[0]);
      TemperatureStaysCold(Step(s, items[0]).0, items[1..]);
    }
  }

  /** Whatever has happened since boot, a tachometer frame draws aux
      pixel 0 in the cold colour: light blue, no red, and the intensity
      byte left as it was. */
  lemma ColdPixelShown(items: seq<WorkItem>, pulse: Unit, junk: Pixel)
    requires Run(Initial, items).0.leds.mode == R.Tachometer
    ensures var s := Run(Initial, items).0;
      var br := s.wheel.brightness;
      Step(s, LedTick(pulse, junk)).0.leds.aux[0] == Pixel(b := R.Scale(255, br), g := R.Scale(100, br), r := 0, i := junk.i)
  {
    var s := Run(Initial, items).0;
    TemperatureStaysCold(Initial, items);
    R.TachometerFrame(s.leds, s.wheel, pulse, junk);
    assert Step(s, LedTick(pulse, junk)).0.leds == R.UpdateLeds(s.leds, s.wheel, pulse, junk);
    assert R.Scale(0, s.wheel.brightness) == 0;
  }

  /** Both aux buttons keep reporting to the test record after boot
      exactly when test mode ran, because their callbacks are never
      detached; each touches only its own entry. */
  lemma AuxButtonsAfterBoot(s: System, e: Edge)
    requires s.phase.Running?
    ensures forall b | b == Aux1Btn || b == Aux2Btn ::
      var r := Step(s, ButtonEdge(b, e)).0;
      if s.phase.testWired then
        && r.wheel.buttons[Index(b)] == (e == Fall)
        && r.wheel == s.wheel.(buttons := r.wheel.buttons)
        && forall k | 0 <= k < BUTTON_COUNT && k != Index(b) :: r.wheel.buttons[k] == s.wheel.buttons[k]
      else r == s
  {
  }
}

=== FILE: renderer.dfy ===
/** The LED renderer: its mode machine, frame timer and the two pixel
    buffers it rewrites on every frame. */
module Renderer {
  import opened Config
  import opened Color
  import opened Tach
  import opened Vehicle

  /** The four animation modes. */
  datatype Mode = StartupAnim | StartupSweep | Tachometer | ButtonTest

  type MainStrip = s: seq<Pixel> | |s| == MAIN_LED_COUNT witness seq(16, _ => Off)

  type AuxStrip = s: seq<Pixel> | |s| == AUX_LED_COUNT witness seq(4, _ => Off)

  /** Renderer state. The frame timer counts frames since the last mode
      change; `Elapsed` turns it into seconds. */
  datatype Leds = Leds(mode: Mode, ticks: nat, pixels: MainStrip, aux: AuxStrip)

  /** The renderer at boot: static storage is zeroed, so the buffers hold
      `Pixel()`, the mode is the first enumerator and the timer is 0. */
  const Initial: Leds := Leds(StartupAnim, 0, seq(MAIN_LED_COUNT, _ => Off), seq(AUX_LED_COUNT, _ => Off))

  function Elapsed(ticks: nat): real
  {
    ticks as real / LED_RATE as real
  }

  /** A commanded mode change: the new mode starts with its timer at 0 and
      the buffers keep their last frame. */
  function UpdateState(leds: Leds, m: Mode): (r: Leds)
    ensures r.mode == m && Elapsed(r.ticks) == 0.0
    ensures r.pixels == leds.pixels && r.aux == leds.aux
  {
    leds.(mode := m, ticks := 0)
  }

  /** `fmod(timer, FLASH_TIME_S) > FLASH_TIME_S / 2`: the flash is lit in
      the second half of each period, counted from mode entry. */
  function FlashOn(ticks: nat): bool
  {
    var t := Elapsed(ticks);
    var periods := (t / FLASH_TIME_S).Floor;
    t - periods as real * FLASH_TIME_S > FLASH_TIME_S / 2.0
  }

  /** A flash period is 9 frames, and the flash is lit in frames 5..8 of
      each period: dark for the first 4 frames after a mode change. */
  lemma FlashPhase(ticks: nat)
    ensures FlashOn(ticks) <==> ticks % 9 >= 5
    ensures FlashOn(ticks + 9) == FlashOn(ticks)
  {
    FlashPhaseOf(ticks);
    FlashPhaseOf(ticks + 9);
    assert (ticks + 9) % 9 == ticks % 9;
  }

  lemma FlashPhaseOf(ticks: nat)
    ensures FlashOn(ticks) <==> ticks % 9 >= 5
  {
    var q, m := ticks / 9, ticks % 9;
    var t := Elapsed(ticks);
    assert t / FLASH_TIME_S == ticks as real / 9.0;
    FloorOfNinths(ticks);
    assert t - q as real * FLASH_TIME_S == m as real / 60.0 by {
      assert ticks == 9 * q + m;
    }
  }

  /** Whole flash periods elapsed: the real quotient floors to the integer
      one. */
  lemma FloorOfNinths(ticks: nat)
    ensures (ticks as real / 9.0).Floor == ticks / 9
  {
    var q, m := ticks / 9, ticks % 9;
    assert ticks == 9 * q + m;
    assert ticks as real / 9.0 == q as real + m as real / 9.0;
    assert q as real <= ticks as real / 9.0 < q as real + 1.0;
  }

  /** The hue offset of the startup animation, `(int)(timer * 400)`. */
  function HueShift(ticks: nat): int
  {
    (Elapsed(ticks) * 400.0).Floor
  }

  /** The startup fade-in: the square of the elapsed time, held at 1 after
      the first second. */
  function EaseIn(ticks: nat): (e: real)
    ensures 0.0 <= e <= 1.0
  {
    var m := if Elapsed(ticks) < 1.0 then Elapsed(ticks) else 1.0;
    UnitProduct(m, m);
    m * m
  }

  /** The startup hue sweep on both strips. */
  function StartupMain(ticks: nat, brightness: Brightness): MainStrip
  {
    var v := Value(brightness, EaseIn(ticks));
    seq(MAIN_LED_COUNT, i requires 0 <= i < MAIN_LED_COUNT => Hsv(Narrow(i * 16 + HueShift(ticks)), 255, v))
  }

  function StartupAux(ticks: nat, brightness: Brightness): AuxStrip
  {
    var v := Value(brightness, EaseIn(ticks));
    seq(AUX_LED_COUNT, i requires 0 <= i < AUX_LED_COUNT => Hsv(Narrow(i * 32 + 16 + HueShift(ticks)), 255, v))
  }

  /** The startup ease-in never decreases. */
  lemma EaseInMonotone(ticks: nat, ticks': nat)
    requires ticks <= ticks'
    ensures EaseIn(ticks) <= EaseIn(ticks')
  {
    var m := if Elapsed(ticks) < 1.0 then Elapsed(ticks) else 1.0;
    var m' := if Elapsed(ticks') < 1.0 then Elapsed(ticks') else 1.0;
    assert Elapsed(ticks) <= Elapsed(ticks');
    assert 0.0 <= m <= m';
    assert EaseIn(ticks) == m * m;
    assert EaseIn(ticks') == m' * m';
    SquareMonotone(m, m');
  }

  /** Squaring is monotone on non-negative reals. */
  lemma SquareMonotone(a: real, b: real)
    requires 0.0 <= a <= b
    ensures a * a <= b * b
  {
    RealMulMono(a, b, a);
    RealMulMono(a, b, b);
  }

  /** The startup fade-in never dims, starts dark and reaches the full
      value after one second. */
  lemma StartupFadeIn(ticks: nat, ticks': nat, brightness: Brightness)
    requires ticks <= ticks'
    ensures Value(brightness, EaseIn(ticks)) <= Value(brightness, EaseIn(ticks'))
    ensures ticks >= LED_RATE ==> Value(brightness, EaseIn(ticks)) == FullValue(brightness)
    ensures Value(brightness, EaseIn(0)) == 0
  {
    EaseInMonotone(ticks, ticks');
    ValueMonotone(brightness, EaseIn(ticks), EaseIn(ticks'));
  }

  /** The engine speed the startup sweep shows, `(int)(timer * FLASH_RPM * 0.6)`. */
  function SweepRpm(ticks: nat): int
  {
    (Elapsed(ticks) * FLASH_RPM as real * 0.6).Floor
  }

  /** The sweep climbs 138 RPM per frame, so it passes FLASH_RPM and starts
      flashing after 100 frames. */
  lemma SweepRamp(ticks: nat)
    ensures SweepRpm(ticks) == 138 * ticks
    ensures SweepRpm(ticks) > FLASH_RPM <==> ticks > 100
  {
    assert Elapsed(ticks) * FLASH_RPM as real * 0.6 == (138 * ticks) as real;
  }

  /** The "searching" pulse shown before any telemetry: every main pixel
      yellow at the pulse level (`pulse` stands for `sin(6 t)^2`), with a
      zero intensity byte. */
  function SearchFrame(pulse: Unit, brightness: Brightness): MainStrip
  {
    var v := Value(brightness, pulse);
    seq(MAIN_LED_COUNT, _ => Pixel(b := 0, g := v, r := v, i := 0))
  }

  /** The colour of a pressed button in button-test mode. */
  function OnColor(brightness: Brightness): Pixel
  {
    Pixel(b := 0, g := FullValue(brightness), r := FullValue(brightness), i := 0)
  }

  /** The button-test frame: main pixel `i < 6` lit while button `i` is
      down, everything else `Pixel()`. */
  function ButtonTestMain(buttons: Buttons, brightness: Brightness): MainStrip
  {
    seq(MAIN_LED_COUNT, i requires 0 <= i < MAIN_LED_COUNT =>
      if i < BUTTON_COUNT && buttons[i] then OnColor(brightness) else Off)
  }

  function AllOff(): AuxStrip
  {
    seq(AUX_LED_COUNT, _ => Off)
  }

  /** The four engine-temperature bands. */
  datatype TempBand = Cold | Normal | Hot | VeryHot

  function Band(ect: int): TempBand
  {
    if ect < ENGINE_COLD_TEMP then Cold
    else if ect < ENGINE_HOT_TEMP then Normal
    else if ect < ENGINE_VERY_HOT_TEMP then Hot
    else VeryHot
  }

  function BandRank(b: TempBand): nat
  {
    match b
    case Cold => 0
    case Normal => 1
    case Hot => 2
    case VeryHot => 3
  }

  /** The bands partition the temperature scale in order: a hotter engine
      never falls in a colder band, and each band begins at its
      threshold. */
  lemma BandsOrdered(ect: int, ect': int)
    requires ect <= ect'
    ensures BandRank(Band(ect)) <= BandRank(Band(ect'))
    ensures Band(ect) == Cold <==> ect < ENGINE_COLD_TEMP
    ensures Band(ect) == VeryHot <==> ect >= ENGINE_VERY_HOT_TEMP
    ensures Band(ect) == Hot <==> ENGINE_HOT_TEMP <= ect < ENGINE_VERY_HOT_TEMP
  {
  }

  /** A colour byte scaled by the brightness, `byte *= float`. */
  function Scale(c: byte, brightness: Brightness): byte
  {
    UnitProduct(brightness, 1.0);
    RealMulMono(brightness, 1.0, c as real);
    ToByte(c as real * brightness)
  }

  /** Aux pixel 0: light blue when cold, off in the normal band, red when
      hot and flashing red when very hot. Its intensity byte is never
      written, modelled by `junk`. */
  function TemperaturePixel(ect: int, brightness: Brightness, flashOn: bool, junk: Pixel): Pixel
  {
    var red := Pixel(b := Scale(0, brightness), g := Scale(50, brightness), r := Scale(255, brightness), i := junk.i);
    var dark := Pixel(b := Scale(0, brightness), g := Scale(0, brightness), r := Scale(0, brightness), i := junk.i);
    match Band(ect)
    case Cold => Pixel(b := Scale(255, brightness), g := Scale(100, brightness), r := Scale(0, brightness), i := junk.i)
    case Normal => dark
    case Hot => red
    case VeryHot => if flashOn then red else dark
  }

  /** At either brightness preset the temperature pixel is dark exactly in
      the normal band and in the off phase of the very-hot flash; it is
      blue-dominant when cold and red-dominant when it is lit hot. */
  lemma TemperaturePixelShowsBand(ect: int, brightness: Brightness, flashOn: bool, junk: Pixel)
    requires brightness == DEFAULT_BRIGHTNESS || brightness == LOW_BRIGHTNESS
    ensures var px := TemperaturePixel(ect, brightness, flashOn, junk);
      && px.i == junk.i
      && (Brightest(px) == 0 <==> Band(ect) == Normal || (Band(ect) == VeryHot && !flashOn))
      && (Band(ect) == Cold ==> px.b > px.g > px.r == 0)
      && (Band(ect) == Hot || (Band(ect) == VeryHot && flashOn) ==> px.r > px.g > px.b == 0)
  {
  }

  /** Aux pixel 3, "engine running", as the source writes it:
      `hsv(30, 255, brightness)` passes the float brightness itself as the
      value byte, which truncates to 1 at the default preset and to 0 at
      the low one. */
  function RunningPixelAsWritten(rpm: int, brightness: Brightness): Pixel
  {
    if rpm > 0 then Hsv(30, 255, ToByte(brightness)) else Hsv(0, 0, 0)
  }

  /** As written, at the low preset a running engine shows exactly the
      pixel of a stopped one, and at the default preset its brightest
      channel is 1 of 255. */
  lemma RunningPixelAsWrittenIsInvisible(rpm: int)
    requires rpm > 0
    ensures RunningPixelAsWritten(rpm, LOW_BRIGHTNESS) == RunningPixelAsWritten(0, LOW_BRIGHTNESS)
    ensures Brightest(RunningPixelAsWritten(rpm, DEFAULT_BRIGHTNESS)) == 1
  {
    HsvValueIsBrightest(30, 255, 1);
    HsvValueIsBrightest(30, 255, 0);
    HsvValueIsBrightest(0, 0, 0);
    assert Hsv(30, 255, 0) == Hsv(0, 0, 0);
  }

  /** Aux pixel 3 as evidently intended: amber at the strip brightness
      while the engine turns, `hsv(0, 0, 0)` otherwise. The frame model
      (`AuxLeds`) draws the pixel as written instead. */
  function RunningPixel(rpm: int, brightness: Brightness): Pixel
  {
    if rpm > 0 then Hsv(30, 255, FullValue(brightness)) else Hsv(0, 0, 0)
  }

  /** At either preset the corrected pixel tells a running engine from a
      stopped one, and shows it at the value of a fully lit pixel. */
  lemma RunningPixelShowsEngine(rpm: int, brightness: Brightness)
    requires brightness == DEFAULT_BRIGHTNESS || brightness == LOW_BRIGHTNESS
    ensures RunningPixel(rpm, brightness) != RunningPixel(0, brightness) <==> rpm > 0
    ensures rpm > 0 ==> Brightest(RunningPixel(rpm, brightness)) == FullValue(brightness) > 0
  {
    HsvValueIsBrightest(30, 255, FullValue(brightness));
    HsvValueIsBrightest(0, 0, 0);
  }

  /** The aux status frame (`auxLeds`), with pixel 3 as the source writes
      it: only pixels 0 and 3 are written; pixels 1 and 2 keep what the
      buffer held. */
  function AuxLeds(aux: AuxStrip, w: Wheel, flashOn: bool, junk: Pixel): (r: AuxStrip)
    ensures r[1] == aux[1] && r[2] == aux[2]
    ensures r[0] == TemperaturePixel(w.ect, w.brightness, flashOn, junk)
    ensures r[3] == RunningPixelAsWritten(w.rpm, w.brightness)
    ensures w.rpm <= 0 ==> r[3] == Hsv(0, 0, 0)
  {
    aux[0 := TemperaturePixel(w.ect, w.brightness, flashOn, junk)][3 := RunningPixelAsWritten(w.rpm, w.brightness)]
  }

  /** Frames of the startup animation before it hands over to the sweep:
      it runs while the timer is at most `STARTUP_ANIM_TIME_S`. */
  const STARTUP_FRAMES: nat := 180

  lemma StartupFramesExact(ticks: nat)
    ensures Elapsed(ticks) > STARTUP_ANIM_TIME_S <==> ticks > STARTUP_FRAMES
  {
  }

  /** One renderer frame (`updateLEDs`). The timer advances by one frame,
      then the current mode draws; only the startup animation changes mode,
      to the sweep, once its timer passes 3 seconds, and that change resets
      the timer. `pulse` is the searching-pulse level of this frame and
      `junk` the contents of uninitialised locals. */
  function UpdateLeds(leds: Leds, w: Wheel, pulse: Unit, junk: Pixel): (r: Leds)
    ensures leds.mode == StartupAnim && Elapsed(leds.ticks + 1) > STARTUP_ANIM_TIME_S ==>
      r.mode == StartupSweep && r.ticks == 0
    ensures !(leds.mode == StartupAnim && Elapsed(leds.ticks + 1) > STARTUP_ANIM_TIME_S) ==>
      r.mode == leds.mode && Elapsed(r.ticks) == Elapsed(leds.ticks) + 1.0 / LED_RATE as real
    ensures leds.mode == Tachometer ==> r.aux[3] == RunningPixelAsWritten(w.rpm, w.brightness)
  {
    var ticks := leds.ticks + 1;
    var flashOn := FlashOn(ticks);
    var br := w.brightness;
    match leds.mode
    case StartupAnim =>
      var main, aux := StartupMain(ticks, br), StartupAux(ticks, br);
      if Elapsed(ticks) > STARTUP_ANIM_TIME_S then UpdateState(Leds(StartupAnim, ticks, main, aux), StartupSweep)
      else Leds(StartupAnim, ticks, main, aux)
    case StartupSweep =>
      Leds(StartupSweep, ticks, TachLeds(SweepRpm(ticks), br, flashOn, junk), AllOff())
    case Tachometer =>
      var main := if w.canReceived then TachLeds(w.rpm, br, flashOn, junk) else SearchFrame(pulse, br);
      Leds(Tachometer, ticks, main, AuxLeds(leds.aux, w, flashOn, junk))
    case ButtonTest =>
      Leds(ButtonTest, ticks, ButtonTestMain(w.buttons, br), AllOff())
  }

  /** A sweep frame: the main strip is the plain tachometer at 138 RPM per
      frame since the sweep began, drawn with the flash phase of that
      frame, and the whole aux strip is `Pixel()`. */
  lemma SweepFrame(leds: Leds, w: Wheel, pulse: Unit, junk: Pixel)
    requires leds.mode == StartupSweep
    ensures var r := UpdateLeds(leds, w, pulse, junk);
      && r.pixels == TachLeds(138 * (leds.ticks + 1), w.brightness, FlashOn(leds.ticks + 1), junk)
      && forall i | 0 <= i < AUX_LED_COUNT :: r.aux[i] == Off
  {
    SweepRamp(leds.ticks + 1);
  }

  /** A startup frame draws the startup strips for the advanced timer. */
  lemma StartupStrips(leds: Leds, w: Wheel, pulse: Unit, junk: Pixel)
    requires leds.mode == StartupAnim
    ensures var r := UpdateLeds(leds, w, pulse, junk);
      r.pixels == StartupMain(leds.ticks + 1, w.brightness) && r.aux == StartupAux(leds.ticks + 1, w.brightness)
  {
  }

  /** A startup frame: both strips show one value, the main strip's hues
      16 apart starting at the hue shift and the aux strip's hues 32 apart
      starting 16 further on; the frame is drawn even on the frame that
      hands over to the sweep. */
  lemma StartupFrame(leds: Leds, w: Wheel, pulse: Unit, junk: Pixel)
    requires leds.mode == StartupAnim
    ensures var r := UpdateLeds(leds, w, pulse, junk);
      var t := leds.ticks + 1;
      var v := Value(w.brightness, EaseIn(t));
      && (forall i | 0 <= i < MAIN_LED_COUNT ::
            r.pixels[i] == Hsv(Narrow(i * 16 + HueShift(t)), 255, v) && Brightest(r.pixels[i]) == v)
      && (forall i | 0 <= i < AUX_LED_COUNT ::
            r.aux[i] == Hsv(Narrow(i * 32 + 16 + HueShift(t)), 255, v) && Brightest(r.aux[i]) == v)
  {
    var t := leds.ticks + 1;
    var v := Value(w.brightness, EaseIn(t));
    StartupStrips(leds, w, pulse, junk);
    forall i | 0 <= i < MAIN_LED_COUNT
      ensures Brightest(Hsv(Narrow(i * 16 + HueShift(t)), 255, v)) == v
    {
      HsvValueIsBrightest(Narrow(i * 16 + HueShift(t)), 255, v);
    }
    forall i | 0 <= i < AUX_LED_COUNT
      ensures Brightest(Hsv(Narrow(i * 32 + 16 + HueShift(t)), 255, v)) == v
    {
      HsvValueIsBrightest(Narrow(i * 32 + 16 + HueShift(t)), 255, v);
    }
  }

  /** In button-test mode main pixel `i` is lit exactly when `i` names a
      pressed button, and the aux strip is dark. */
  lemma ButtonTestFrame(leds: Leds, w: Wheel, pulse: Unit, junk: Pixel)
    requires leds.mode == ButtonTest
    requires w.brightness == DEFAULT_BRIGHTNESS || w.brightness == LOW_BRIGHTNESS
    ensures var r := UpdateLeds(leds, w, pulse, junk);
      && (forall i | 0 <= i < MAIN_LED_COUNT :: r.pixels[i] != Off <==> i < BUTTON_COUNT && w.buttons[i])
      && (forall i | 0 <= i < BUTTON_COUNT :: r.pixels[i] == if w.buttons[i] then OnColor(w.brightness) else Off)
      && (forall i | 0 <= i < AUX_LED_COUNT :: r.aux[i] == Off)
  {
    assert FullValue(w.brightness) > 0 by {
      if w.brightness == LOW_BRIGHTNESS {
        assert 255.0 * w.brightness * 1.0 == 25.5;
      }
    }
  }

  /** The live tachometer: with telemetry the main strip is the tachometer
      pattern for the reported speed; before any telemetry every pixel is
      the yellow searching pulse, red and green at the pulse's value. Aux
      pixel 0 is the temperature pixel, pixels 1 and 2 are kept, and pixel
      3 shows the engine state; at the low preset that is the
      stopped-engine pixel whatever the engine speed. */
  lemma TachometerFrame(leds: Leds, w: Wheel, pulse: Unit, junk: Pixel)
    requires leds.mode == Tachometer
    ensures var r := UpdateLeds(leds, w, pulse, junk);
      var flashOn := FlashOn(leds.ticks + 1);
      && (w.canReceived ==> r.pixels == TachLeds(w.rpm, w.brightness, flashOn, junk))
      && (!w.canReceived ==> forall i | 0 <= i < MAIN_LED_COUNT ::
            r.pixels[i] == Pixel(b := 0, g := Value(w.brightness, pulse), r := Value(w.brightness, pulse), i := 0))
      && r.aux[0] == TemperaturePixel(w.ect, w.brightness, flashOn, junk)
      && r.aux[1] == leds.aux[1] && r.aux[2] == leds.aux[2]
      && r.aux[3] == RunningPixelAsWritten(w.rpm, w.brightness)
      && (w.brightness == LOW_BRIGHTNESS ==> r.aux[3] == Hsv(0, 0, 0))
  {
    if w.rpm > 0 {
      RunningPixelAsWrittenIsInvisible(w.rpm);
    }
  }

  /** The inputs of one frame. */
  datatype TickInput = TickInput(wheel: Wheel, pulse: Unit, junk: Pixel)

  /** The renderer after one frame per input, in order. */
  function Frames(leds: Leds, inputs: seq<TickInput>): Leds
    decreases |inputs|
  {
    if |inputs| == 0 then leds
    else
      var last := inputs[|inputs| - 1];
      UpdateLeds(Frames(leds, inputs[..|inputs| - 1]), last.wheel, last.pulse, last.junk)
  }

  /** From a fresh start, the startup animation holds for 180 frames, and
      the 181st frame switches to the sweep with the timer back at 0,
      whatever the wheel state meanwhile. */
  lemma {:induction false} StartupHandsOverToSweep(leds: Leds, inputs: seq<TickInput>)
    requires leds.mode == StartupAnim && leds.ticks == 0
    requires |inputs| <= STARTUP_FRAMES + 1
    ensures var r := Frames(leds, inputs);
      if |inputs| <= STARTUP_FRAMES then r.mode == StartupAnim && r.ticks == |inputs|
      else r.mode == StartupSweep && r.ticks == 0
    decreases |inputs|
  {
    if |inputs| > 0 {
      var prefix := inputs[..|inputs| - 1];
      StartupHandsOverToSweep(leds, prefix);
      StartupFramesExact(|inputs|);
    }
  }
}

=== FILE: tach.dfy ===
/** The tachometer pattern on the main strip: which of the 16 pixels are
    full, partial or dark for an engine speed, and the flash above
    FLASH_RPM. */
module Tach {
  import opened Config
  import opened Color

  /** How many pixels the engine speed asks to light, as a real number
      that may be negative or exceed the strip length. */
  function LitCount(rpm: int): real
  {
    (rpm - MIN_RPM) as real / (FLASH_RPM - MIN_RPM) as real * MAIN_LED_COUNT as real
  }

  /** The drive of pixel `i`: the lit count shifted so that the last pixel
      of the strip lights first. */
  function Power(rpm: int, i: int): real
  {
    LitCount(rpm) - (MAIN_LED_COUNT - i) as real
  }

  /** How far a pixel is lit. */
  datatype Level = Full | Partial | Dark

  /** Integer reference for `Power`: the drive scaled by the width of the
      tachometer band, FLASH_RPM - MIN_RPM. */
  function ScaledPower(rpm: int, i: int): int
  {
    (rpm - MIN_RPM) * MAIN_LED_COUNT - (MAIN_LED_COUNT - i) * (FLASH_RPM - MIN_RPM)
  }

  /** The level of pixel `i`, by integer cross-multiplication. */
  function Classify(rpm: int, i: int): Level
  {
    var sp := ScaledPower(rpm, i);
    if sp > FLASH_RPM - MIN_RPM then Full
    else if sp > 0 then Partial
    else Dark
  }

  /** The real-valued drive and the integer classification agree: a pixel
      is full exactly when its drive exceeds 1, partial exactly when it is
      in (0, 1], and dark otherwise. */
  lemma ClassifyMatchesPower(rpm: int, i: int)
    ensures Power(rpm, i) == ScaledPower(rpm, i) as real / (FLASH_RPM - MIN_RPM) as real
    ensures Classify(rpm, i) == Full <==> Power(rpm, i) > 1.0
    ensures Classify(rpm, i) == Partial <==> 0.0 < Power(rpm, i) <= 1.0
    ensures Classify(rpm, i) == Dark <==> Power(rpm, i) <= 0.0
  {
    var w := (FLASH_RPM - MIN_RPM) as real;
    assert Power(rpm, i) == ScaledPower(rpm, i) as real / w;
  }

  /** The first pixel that is fully lit (16 when none is). */
  function FirstFull(rpm: int): int
  {
    (FLASH_RPM + RPM_PER_PIXEL - rpm) / RPM_PER_PIXEL + 1
  }

  /** The first pixel that is lit at all (16 when none is). */
  function FirstLit(rpm: int): int
  {
    (FLASH_RPM - rpm) / RPM_PER_PIXEL + 1
  }

  /** For `d > 0`, `j * d > x` exactly when `j` is past the floor of
      `x / d`. */
  lemma AboveQuotient(j: int, x: int, d: int)
    requires d > 0
    ensures j * d > x <==> j >= x / d + 1
  {
    var q, m := x / d, x % d;
    assert x == q * d + m && 0 <= m < d;
    if j >= q + 1 {
      assert j * d >= (q + 1) * d;
    } else {
      assert j * d <= q * d;
    }
  }

  /** The lit pixels and the fully lit pixels each form a suffix of the
      strip, and the fully lit suffix starts one pixel later: at most one
      pixel is partially lit. */
  lemma {:induction false} LitPixelsFormSuffix(rpm: int, j: int)
    requires 0 <= j < MAIN_LED_COUNT
    ensures Classify(rpm, j) == Full <==> j >= FirstFull(rpm)
    ensures Classify(rpm, j) != Dark <==> j >= FirstLit(rpm)
    ensures FirstFull(rpm) == FirstLit(rpm) + 1
  {
    assert ScaledPower(rpm, j) == 16 * (rpm - 13800 + j * 500);
    AboveQuotient(j, FLASH_RPM + RPM_PER_PIXEL - rpm, RPM_PER_PIXEL);
    AboveQuotient(j, FLASH_RPM - rpm, RPM_PER_PIXEL);
  }

  /** Raising the engine speed never dims a pixel's level, and moving
      towards the end of the strip never dims it either. */
  lemma LevelMonotone(rpm: int, rpm': int, i: int, j: int)
    requires rpm <= rpm' && i <= j
    ensures Classify(rpm, i) == Full ==> Classify(rpm', j) == Full
    ensures Classify(rpm, i) != Dark ==> Classify(rpm', j) != Dark
  {
  }

  /** The truncated value byte for a colour at `fraction` of full scale. */
  function Value(brightness: Brightness, fraction: real): byte
    requires 0.0 <= fraction <= 1.0
  {
    assert 0.0 <= brightness * fraction <= 1.0 by { UnitProduct(brightness, fraction); }
    ToByte(255.0 * brightness * fraction)
  }

  lemma UnitProduct(a: real, b: real)
    requires 0.0 <= a <= 1.0 && 0.0 <= b <= 1.0
    ensures 0.0 <= a * b <= b && a * b <= a
  {
  }

  /** A smaller fraction never gives a larger value byte. */
  lemma ValueMonotone(brightness: Brightness, f: real, f': real)
    requires 0.0 <= f <= f' <= 1.0
    ensures Value(brightness, f) <= Value(brightness, f')
  {
    RealMulMono(f, f', 255.0 * brightness);
  }

  lemma RealMulMono(a: real, b: real, c: real)
    requires 0.0 <= c && a <= b
    ensures c * a <= c * b
  {
  }

  /** Value byte of a fully lit pixel. */
  function FullValue(brightness: Brightness): byte
  {
    Value(brightness, 1.0)
  }

  /** The colour the whole strip takes above FLASH_RPM. In the lit phase
      red and green are set; every other byte, and the whole pixel in the
      dark phase, is whatever the uninitialised local held, modelled by
      `junk`. */
  function FlashColor(brightness: Brightness, flashOn: bool, junk: Pixel): Pixel
  {
    if flashOn then junk.(r := Value(brightness, 1.0), g := Value(brightness, 150.0 / 255.0))
    else junk
  }

  /** A plain tachometer pixel of hue `hue` driven at `power`: full value
      above 1, value scaled by the square of the drive in (0, 1], and
      `Pixel()` otherwise. */
  function DrivenPixel(hue: byte, power: real, brightness: Brightness): Pixel
  {
    if power > 1.0 then Hsv(hue, 255, FullValue(brightness))
    else if power > 0.0 then
      assert power * power <= 1.0 by { UnitProduct(power, power); }
      Hsv(hue, 255, Value(brightness, power * power))
    else Off
  }

  /** Pixel `i` of the plain tachometer below the flash threshold. */
  function TachPixel(rpm: int, i: int, brightness: Brightness): Pixel
    requires 0 <= i < MAIN_LED_COUNT
  {
    DrivenPixel(Narrow(i * 4), Power(rpm, i), brightness)
  }

  /** A partially driven pixel keeps its hue and is never brighter than a
      fully driven one. */
  lemma PartialPixelDimmer(hue: byte, power: real, brightness: Brightness)
    requires 0.0 < power <= 1.0
    ensures var px := DrivenPixel(hue, power, brightness);
      px == Hsv(hue, 255, Brightest(px)) && Brightest(px) <= FullValue(brightness)
    ensures power * power <= 1.0 && Brightest(DrivenPixel(hue, power, brightness)) == Value(brightness, power * power)
  {
    UnitProduct(power, power);
    var v := Value(brightness, power * power);
    ValueMonotone(brightness, power * power, 1.0);
    HsvValueIsBrightest(hue, 255, v);
  }

  /** The classification of one tachometer pixel, stated through its
      colour: dark pixels are `Pixel()`, full ones carry the pixel's hue at
      full value, and a partial one carries the same hue no brighter. */
  lemma {:induction false} TachPixelLevel(rpm: int, i: int, brightness: Brightness)
    requires 0 <= i < MAIN_LED_COUNT
    ensures TachPixel(rpm, i, brightness) == Off <==> Classify(rpm, i) == Dark
    ensures Classify(rpm, i) == Full ==> TachPixel(rpm, i, brightness) == Hsv(4 * i, 255, FullValue(brightness))
    ensures Classify(rpm, i) == Partial ==>
      var px := TachPixel(rpm, i, brightness);
      px == Hsv(4 * i, 255, Brightest(px)) && Brightest(px) <= FullValue(brightness)
  {
    ClassifyMatchesPower(rpm, i);
    if Classify(rpm, i) == Partial {
      PartialPixelDimmer(4 * i, Power(rpm, i), brightness);
    }
  }

  /** A partially driven tachometer pixel shows `255 * brightness *
      power * power`, the square of its drive. */
  lemma TachPixelPartialValue(rpm: int, i: int, brightness: Brightness)
    requires 0 <= i < MAIN_LED_COUNT
    ensures var power := Power(rpm, i);
      0.0 < power <= 1.0 ==>
        power * power <= 1.0 && Brightest(TachPixel(rpm, i, brightness)) == Value(brightness, power * power)
  {
    var power := Power(rpm, i);
    if 0.0 < power <= 1.0 {
      PartialPixelDimmer(Narrow(i * 4), power, brightness);
    }
  }

  /** The plain tachometer frame (`tachLeds`). Above FLASH_RPM all 16
      pixels take one flash colour; below it each pixel shows its level. */
  function TachLeds(rpm: int, brightness: Brightness, flashOn: bool, junk: Pixel): (px: seq<Pixel>)
    ensures |px| == MAIN_LED_COUNT
    ensures rpm > FLASH_RPM ==> forall i | 0 <= i < |px| :: px[i] == FlashColor(brightness, flashOn, junk)
  {
    if rpm > FLASH_RPM then seq(MAIN_LED_COUNT, _ => FlashColor(brightness, flashOn, junk))
    else seq(MAIN_LED_COUNT, i requires 0 <= i < MAIN_LED_COUNT => TachPixel(rpm, i, brightness))
  }

  /** Below the flash threshold pixel `i` of the plain tachometer is
      `Pixel()` exactly when it is dark, carries its hue `4 * i` at full
      value when full, and the same hue no brighter when partial. */
  lemma TachLedsLevels(rpm: int, brightness: Brightness, flashOn: bool, junk: Pixel)
    requires rpm <= FLASH_RPM
    ensures var px := TachLeds(rpm, brightness, flashOn, junk);
      forall i | 0 <= i < MAIN_LED_COUNT ::
        && (px[i] == Off <==> Classify(rpm, i) == Dark)
        && (Classify(rpm, i) == Full ==> px[i] == Hsv(4 * i, 255, FullValue(brightness)))
        && (Classify(rpm, i) == Partial ==>
              px[i] == Hsv(4 * i, 255, Brightest(px[i])) && Brightest(px[i]) <= FullValue(brightness))
  {
    var px := TachLeds(rpm, brightness, flashOn, junk);
    forall i | 0 <= i < MAIN_LED_COUNT
      ensures && (px[i] == Off <==> Classify(rpm, i) == Dark)
              && (Classify(rpm, i) == Full ==> px[i] == Hsv(4 * i, 255, FullValue(brightness)))
              && (Classify(rpm, i) == Partial ==>
                    px[i] == Hsv(4 * i, 255, Brightest(px[i])) && Brightest(px[i]) <= FullValue(brightness))
    {
      assert px[i] == TachPixel(rpm, i, brightness);
      TachPixelLevel(rpm, i, brightness);
    }
  }

  /** At or below MIN_RPM every pixel is `Pixel()`. */
  lemma IdleStripIsDark(rpm: int, brightness: Brightness, flashOn: bool, junk: Pixel)
    requires rpm <= MIN_RPM
    ensures forall i | 0 <= i < MAIN_LED_COUNT :: TachLeds(rpm, brightness, flashOn, junk)[i] == Off
  {
  }

  /** At exactly FLASH_RPM the drive of pixel `i` is `i`: pixel 0 stays
      dark, pixel 1 is partial (at full value, since its drive is 1) and
      pixels 2..15 are full. Below the flash threshold pixel 0 never
      lights. */
  lemma AtFlashThreshold(i: int, brightness: Brightness, flashOn: bool, junk: Pixel)
    requires 0 <= i < MAIN_LED_COUNT
    ensures Power(FLASH_RPM, i) == i as real
    ensures Classify(FLASH_RPM, i) == (if i == 0 then Dark else if i == 1 then Partial else Full)
    ensures TachLeds(FLASH_RPM, brightness, flashOn, junk)[0] == Off
    ensures TachLeds(FLASH_RPM, brightness, flashOn, junk)[1] == Hsv(4, 255, FullValue(brightness))
    ensures forall rpm | rpm <= FLASH_RPM :: Classify(rpm, 0) == Dark
  {
    assert ScaledPower(FLASH_RPM, i) == 8000 * i;
    ClassifyMatchesPower(FLASH_RPM, i);
    ThresholdEdgePixels(brightness, flashOn, junk);
    forall rpm | rpm <= FLASH_RPM
      ensures Classify(rpm, 0) == Dark
    {
      assert ScaledPower(rpm, 0) == 16 * (rpm - FLASH_RPM);
    }
  }

  /** Pixels 0 and 1 of the tachometer at exactly FLASH_RPM. */
  lemma ThresholdEdgePixels(brightness: Brightness, flashOn: bool, junk: Pixel)
    ensures TachLeds(FLASH_RPM, brightness, flashOn, junk)[0] == Off
    ensures TachLeds(FLASH_RPM, brightness, flashOn, junk)[1] == Hsv(4, 255, FullValue(brightness))
  {
    var px := TachLeds(FLASH_RPM, brightness, flashOn, junk);
    assert Power(FLASH_RPM, 0) == 0.0;
    assert Power(FLASH_RPM, 1) == 1.0;
    assert px[0] == TachPixel(FLASH_RPM, 0, brightness) == DrivenPixel(0, 0.0, brightness);
    assert px[1] == TachPixel(FLASH_RPM, 1, brightness) == DrivenPixel(4, 1.0, brightness);
  }

  /** Pixel `i` of the rainbow tachometer below the flash threshold: every
      pixel is lit in its own hue; dark pixels glow at 10%. */
  function RainbowPixel(rpm: int, i: int, brightness: Brightness, hueShift: int): Pixel
    requires 0 <= i < MAIN_LED_COUNT
  {
    var power := Power(rpm, i);
    var hue := Narrow(i * 16 + hueShift);
    if power > 1.0 then Hsv(hue, 255, FullValue(brightness))
    else if power > 0.0 then Hsv(hue, 255, Value(brightness, power))
    else Hsv(hue, 255, Value(brightness, 0.1))
  }

  /** The rainbow tachometer frame (`tachLedsRainbow`): pixel `i` has hue
      `i * 16 + hueShift` modulo 256. Above FLASH_RPM the lit phase shows
      every hue at full value and the dark phase leaves one uniform,
      uninitialised colour. */
  function TachLedsRainbow(rpm: int, brightness: Brightness, hueShift: int, flashOn: bool, junk: Pixel): (px: seq<Pixel>)
    ensures |px| == MAIN_LED_COUNT
    ensures rpm > FLASH_RPM && flashOn ==> forall i | 0 <= i < |px| ::
      px[i] == Hsv(Narrow(i * 16 + hueShift), 255, FullValue(brightness))
    ensures rpm > FLASH_RPM && !flashOn ==> forall i | 0 <= i < |px| :: px[i] == junk
  {
    if rpm > FLASH_RPM then
      if flashOn then seq(MAIN_LED_COUNT, i requires 0 <= i < MAIN_LED_COUNT =>
        Hsv(Narrow(i * 16 + hueShift), 255, FullValue(brightness)))
      else seq(MAIN_LED_COUNT, _ => junk)
    else seq(MAIN_LED_COUNT, i requires 0 <= i < MAIN_LED_COUNT => RainbowPixel(rpm, i, brightness, hueShift))
  }

  /** Below the flash threshold no rainbow pixel is ever `Pixel()`: each
      is its own hue, at full value when full, at its drive's share of the
      full value when partial, and at 10% when dark. */
  lemma RainbowLevels(rpm: int, brightness: Brightness, hueShift: int, flashOn: bool, junk: Pixel)
    requires rpm <= FLASH_RPM
    ensures var px := TachLedsRainbow(rpm, brightness, hueShift, flashOn, junk);
      forall i | 0 <= i < MAIN_LED_COUNT ::
        && px[i] != Off
        && px[i] == Hsv(Narrow(i * 16 + hueShift), 255, Brightest(px[i]))
        && (Classify(rpm, i) == Full ==> Brightest(px[i]) == FullValue(brightness))
        && (Classify(rpm, i) == Dark ==> Brightest(px[i]) == Value(brightness, 0.1))
        && (0.0 < Power(rpm, i) <= 1.0 ==> Brightest(px[i]) == Value(brightness, Power(rpm, i)))
  {
    var px := TachLedsRainbow(rpm, brightness, hueShift, flashOn, junk);
    forall i | 0 <= i < MAIN_LED_COUNT
      ensures && px[i] != Off
              && px[i] == Hsv(Narrow(i * 16 + hueShift), 255, Brightest(px[i]))
              && (Classify(rpm, i) == Full ==> Brightest(px[i]) == FullValue(brightness))
              && (Classify(rpm, i) == Dark ==> Brightest(px[i]) == Value(brightness, 0.1))
              && (0.0 < Power(rpm, i) <= 1.0 ==> Brightest(px[i]) == Value(brightness, Power(rpm, i)))
    {
      assert px[i] == RainbowPixel(rpm, i, brightness, hueShift);
      RainbowPixelLevel(rpm, i, brightness, hueShift);
    }
  }

  /** The conclusions of `RainbowPixelLevel` for pixel `i`. */
  ghost predicate RainbowPixelFacts(rpm: int, i: int, brightness: Brightness, hueShift: int)
    requires 0 <= i < MAIN_LED_COUNT
  {
    var px := RainbowPixel(rpm, i, brightness, hueShift);
    && px.i == 255
    && px == Hsv(Narrow(i * 16 + hueShift), 255, Brightest(px))
    && (Classify(rpm, i) == Full ==> Brightest(px) == FullValue(brightness))
    && (Classify(rpm, i) == Dark ==> Brightest(px) == Value(brightness, 0.1))
    && (0.0 < Power(rpm, i) <= 1.0 ==> Brightest(px) == Value(brightness, Power(rpm, i)))
  }

  /** Every rainbow pixel below the flash threshold is its own hue at a
      value set by its level. */
  lemma RainbowPixelLevel(rpm: int, i: int, brightness: Brightness, hueShift: int)
    requires 0 <= i < MAIN_LED_COUNT
    ensures RainbowPixelFacts(rpm, i, brightness, hueShift)
  {
    ClassifyMatchesPower(rpm, i);
    var power := Power(rpm, i);
    var hue := Narrow(i * 16 + hueShift);
    if power > 1.0 {
      HsvValueIsBrightest(hue, 255, FullValue(brightness));
    } else if power > 0.0 {
      HsvValueIsBrightest(hue, 255, Value(brightness, power));
    } else {
      HsvValueIsBrightest(hue, 255, Value(brightness, 0.1));
    }
  }

  /** In the rainbow pattern a partially lit pixel can be darker than a
      dark one: at 6325 RPM and full brightness pixel 15 has drive 0.05,
      value 12, while the dark pixels glow at value 25. */
  lemma RainbowPartialDipsBelowGlow()
    ensures Classify(6325, 15) == Partial && Classify(6325, 14) == Dark
    ensures Brightest(RainbowPixel(6325, 15, 1.0, 0)) == 12
    ensures Brightest(RainbowPixel(6325, 14, 1.0, 0)) == 25
  {
    ClassifyMatchesPower(6325, 15);
    ClassifyMatchesPower(6325, 14);
    assert Power(6325, 15) == 0.05;
    HsvValueIsBrightest(Narrow(15 * 16), 255, Value(1.0, 0.05));
    HsvValueIsBrightest(Narrow(14 * 16), 255, Value(1.0, 0.1));
  }
}

=== FILE: vehicle.dfy ===
/** The shared steering-wheel state record. */
module Vehicle {
  import opened Config

  /** Live state of the six buttons, meaningful in button-test mode. */
  type Buttons = s: seq<bool> | |s| == BUTTON_COUNT witness [false, false, false, false, false, false]

  /** The latest telemetry and UI settings. The lock that guards the
      record is not modelled: every handler is one atomic step. */
  datatype Wheel = Wheel(
    canReceived: bool,
    drsEngaged: bool,
    launchCtlEngaged: bool,
    rpm: int,
    ect: int,
    brightness: Brightness,
    buttons: Buttons)

  /** The record at boot: zero-initialised, then the default brightness. */
  const Initial: Wheel := Wheel(
    canReceived := false,
    drsEngaged := false,
    launchCtlEngaged := false,
    rpm := 0,
    ect := 0,
    brightness := DEFAULT_BRIGHTNESS,
    buttons := [false, false, false, false, false, false])

  /** What every handler keeps true: the brightness is one of the two
      presets and the engine speed is a decoded 16-bit word. */
  predicate Valid(w: Wheel)
  {
    && (w.brightness == DEFAULT_BRIGHTNESS || w.brightness == LOW_BRIGHTNESS)
    && 0 <= w.rpm <= 65535
  }

  lemma InitialValid()
    ensures Valid(Initial) && !Initial.canReceived && !Initial.drsEngaged
    ensures Initial.brightness == DEFAULT_BRIGHTNESS && Initial.rpm == 0
    ensures forall k | 0 <= k < BUTTON_COUNT :: !Initial.buttons[k]
  {
  }
}
